=== FILE: README.md ===
# anytype-loader in Dafny

This project models the core of anytype-loader. That library is a document
loader: it reads the objects of chosen spaces from the local HTTP API of the
Anytype desktop application and turns each object into a text record with
metadata. The model covers two implementations:

- the package loader `AnytypeLoader` in `anytype_loader/loader.py`;
- the older single-file loader `anytype_loader.py`.

Each piece of the package loader is a pure Dafny function. Its result pairs
the Python value, or the exception raised, with the warnings issued along the
way. Lemmas state what the source promises about those results. The older
loader is modelled beside the package, and lemmas compare the two.

The modules are:

- `Json` (json.dfy): decoded JSON values as Python sees them.
  - `Get` is `dict.get`: a repeated key keeps its last binding, and a
    missing key gives `None`.
  - `Truthy` is `bool()`.
  - `Hashable` says whether a value can be a dict key or a set member.
  - `PyStr` is `str()`.
- `Errors` (errors.dfy): the two loader exceptions (`AnytypeAPIError` and
  its subclass `AnytypeAuthError`), the built-in exceptions the code can
  raise, `Result`, and the warning events.
- `Transport` (transport.dfy): the retry adapter `_request_with_retries`,
  the status check `_raise_for_status`, and `_headers`. The HTTP library is
  a function from the call number to that call's answer: a response, or a
  raised `RequestException`.
- `Normalise` (normalise.dfy):
  - the listing parser `_parse_objects_response`;
  - the spaces body reader of `_list_spaces`;
  - `_extract_properties`;
  - the normalisation half of `_fetch_object`.
- `Spaces` (spaces.dfy): `_resolve_space_ids`.
- `Pagination` (pagination.dfy): the offset-pagination generator
  `_iter_object_ids`. It runs over a finite script of listing answers, and
  the `warnEmpty` flag separates the package from the older loader.
- `Loader` (loader.dfy): the constructor, each endpoint call (retry
  adapter, then JSON decoding, then the parser), and the `lazy_load` fold
  over fetch results.
- `Legacy` (legacy.dfy): the older loader's resolver, parser, pagination,
  property extraction and object normalisation, with the lemmas that
  compare each one with the package's.

The package and the older loader differ in these ways:

- The older parser skips an entry without an `id`, logs it, and stringifies
  the ids. The package raises on such an entry.
- The older resolver keys its map by `str(id)`, returns its ids through a
  set, and does not warn about unknown names.
- The older extractor indexes `prop["key"]` directly, so a property without
  a key raises KeyError.
- The older normaliser skips a body without an object dict instead of
  raising. It indexes `name`, `archived` and `type.name` directly, with no
  fallback values, and it adds `source`.

## Model

| member | source | states |
|---|---|---|
| Errors.Index | anytype_loader/loader.py:214 | `obj["id"]` succeeds exactly on a dict that binds the key, with the value `get` finds; otherwise it is KeyError on a dict and TypeError on anything else |
| Json.LookupLast | anytype_loader/loader.py:66-67 | a dict lookup finds a key exactly when some member carries it; the value comes from the last such member, since json.loads keeps the last duplicate |
| Json.GetLast | anytype_loader/loader.py:199 | `get` (the `Json.Get` definition) on a value that is not a dict gives None; on a dict it finds a key exactly when some member carries it, with the last such member's value, and gives None otherwise |
| Loader.Validate | anytype_loader/loader.py:36-39 | the constructor passes its checks exactly when url, api_key and space_names are all non-empty; empty credentials raise the credentials ValueError, which takes precedence |
| Loader.RStripSlash | anytype_loader/loader.py:40 | the base url is a prefix of the given url with no trailing slash, and only slashes were removed |
| Loader.RStripIdempotent | anytype_loader/loader.py:40 | stripping an already stripped url changes nothing |
| Loader.Wanted | anytype_loader/loader.py:61 | the wanted set holds exactly the names in the list |
| Loader.Init | anytype_loader/loader.py:27-54 | failed validation raises before any request; otherwise the spaces request makes 1 to 4 calls through the retry adapter and an adapter failure propagates; an undecodable body raises JSONDecodeError; a decodable one is read by the spaces reader and resolved against the wanted names, and the built loader's id list and id-to-name map are the resolver's result on those spaces; the warnings are the adapter's, then the reader's, then the resolver's; a built loader has the stripped url, keeps the given page size, query and concurrency limit, and has at least one space id; a ValueError (JSONDecodeError included) after a request is either the nothing-resolved error or the decoding error |
| Loader.InitRequiresCredentials | tests/test_loader.py:25-27 | empty url and key raise ValueError with no request and no warning |
| Loader.DecodeBody | anytype_loader/loader.py:228 | `response.json()` gives the body's JSON, or raises JSONDecodeError exactly when the body does not decode |
| Loader.ListObjects | anytype_loader/loader.py:148-164 | an adapter failure propagates with the adapter's warnings; a page comes only from a final answer below 400 whose body decodes, and it is that body's parse; every such answer is parsed, its page or exception returned after the adapter's warnings and the parser's; an undecodable body raises JSONDecodeError; the only exceptions are API errors, JSONDecodeError, KeyError("id") and TypeError |
| Loader.FetchObject | anytype_loader/loader.py:225-228 | an adapter failure propagates; a record or skip comes only from a final answer below 400 whose decoded body is normalised; every such body is normalised, its outcome returned after the adapter's warnings and the normaliser's; an undecodable body fails with JSONDecodeError; failures are API errors, JSONDecodeError, TypeError or AttributeError |
| Loader.Documents | anytype_loader/loader.py:83-94 | `lazy_load` over fetch results yields at most one document per fetch; it ends with an exception exactly when some fetch failed, and that exception is the first failing fetch's |
| Loader.DocumentsWithoutFailure | anytype_loader/loader.py:83-94 | when no fetch fails, `lazy_load` yields every record in order (skips passed over) and ends normally |
| Loader.DocumentsStopAtFailure | anytype_loader/loader.py:83-94 | the first failing fetch ends `lazy_load` with its exception, after the records of the fetches before it |
| Transport.ErrorDetail | anytype_loader/loader.py:432-438 | the detail is the body's truthy `message`, else its truthy `error`, else ""; a JSON body that is not a dict gives ""; an undecodable body gives the first 200 characters of its text |
| Transport.RaiseForStatus | anytype_loader/loader.py:428-447 | a status below 400 passes; 401 and 403, and only those, raise the authentication error; any other status of 400 or above raises the API error; both carry the status and the detail |
| Transport.Settle | anytype_loader/loader.py:397-409 | a raised transport exception becomes an API error at once; a response is returned exactly when its status is below 400, and otherwise raises what the status check raises |
| Transport.RequestWithRetries | anytype_loader/loader.py:394-409 | the HTTP library is called at most max_retries + 1 times; every call but the last got a 429 or 503; a last 429 or 503 means the budget was spent; the result is the settlement of the last answer; there is one sleep and one warning per retry |
| Transport.RetrySleeps | anytype_loader/loader.py:405-406 | the i-th sleep is backoff * (i + 1): a linear backoff |
| Transport.RetryWarnings | anytype_loader/loader.py:401-404 | the i-th warning names the status that was retried and the retry's number, i + 1, out of max_retries |
| Transport.RetryThenSucceed | anytype_loader/loader.py:401-409 | a 429 or 503 followed by a 200 returns the 200 after two calls, one sleep of one backoff unit and one warning |
| Transport.RetryExhausted | anytype_loader/loader.py:401-409 | when every answer is a 429, the adapter makes max_retries + 1 calls and then raises the API error for status 429 with the last body's detail |
| Transport.Headers | anytype_loader/loader.py:319-326 | the headers always carry Accept and User-Agent, and carry a Bearer Authorization exactly when the key is non-empty |
| Normalise.IdsOf | anytype_loader/loader.py:212-214 | the ids are every entry's `id`, in order, exactly when every entry binds one; otherwise the first entry without one raises KeyError("id") (a dict) or TypeError (anything else) |
| Normalise.ParseObjectsResponse | anytype_loader/loader.py:205-223 | a body that is not a dict with a list `data` gives an empty final page and one warning; otherwise there is no warning, the ids are those of the entries, and `has_more` is set only when `pagination` is a dict with a truthy `has_more` |
| Normalise.ParseListingBody | anytype_loader/loader.py:205-223 | parsing the listing a server renders gives back its ids in order and its flag, with no warning |
| Normalise.ListSpaces | anytype_loader/loader.py:198-203 | the spaces are the body's `data` list; any other body gives no spaces and one warning |
| Normalise.RenameValueKeys | anytype_loader/loader.py:357-361 | the rename map sends the four value keys to distinct output keys, none of them `tags` |
| Normalise.TagNames | anytype_loader/loader.py:373-376 | the tag names are non-empty strings, no more than there are tags, and the list is empty exactly when no entry is a dict with a truthy name |
| Normalise.TagNamesAppend | anytype_loader/loader.py:374-376 | the loop appends per tag: the names of a concatenation are the names of the first part followed by those of the second |
| Normalise.TagNamesOne | anytype_loader/loader.py:375-376 | a single tag gives `[str(tag["name"])]` when it is a dict with a truthy name and nothing otherwise; with the append lemma this fixes the names of every list, in order |
| Normalise.KeyedContribution | anytype_loader/loader.py:366-390 | a property only ever adds output keys |
| Normalise.KeyedContributionSpec | anytype_loader/loader.py:366-390 | a property adds at most one key; the tag property adds `tags` exactly when it has tag names, and binds it to `TagNames` of its `multi_select` list (the names, in order, as `Normalise.TagNamesAppend` and `Normalise.TagNamesOne` fix them); a date or text property with allowed key k adds Rename(k), bound to `prop[format]`, exactly when its format is `date` or `text`; any other key adds nothing |
| Normalise.Contribution | anytype_loader/loader.py:363-366 | reading a property succeeds exactly on a dict with a hashable `key`; otherwise it raises TypeError (unhashable key) or AttributeError (not a dict) |
| Normalise.ExtractRaises | anytype_loader/loader.py:363-366 | extraction raises exactly when some property does, and then with the first such property's exception |
| Normalise.ExtractAll | anytype_loader/loader.py:363-390 | the fold over the property list yields only the five output keys, and the only exceptions it raises are TypeError and AttributeError |
| Normalise.ExtractProperties | anytype_loader/loader.py:345-392 | anything but a list gives {}; the keys of the result are always among tags, description, created_at, updated_at and last_opened_at |
| Normalise.ExtractAppend | anytype_loader/loader.py:363-386 | extracting a concatenation merges the two halves' results with the later half winning |
| Normalise.ExtractLastWins | anytype_loader/loader.py:363-386 | an output key is present exactly when some property sets it, and its value comes from the last property that does |
| Normalise.TagExample | tests/test_loader.py:66 | the test's tag property contributes both tag names in order |
| Normalise.IgnoredExample | tests/test_loader.py:71 | the test's `objects` property with an unlisted key contributes nothing |
| Normalise.IgnoredKey | anytype_loader/loader.py:366-367 | a property whose string key is not on the allow-list contributes nothing and does not raise |
| Normalise.DatedContribution | anytype_loader/loader.py:381-386 | a date or text property contributes its value under the renamed key |
| Normalise.ExtractExample | tests/test_loader.py:64-82 | the package test's six properties extract to the five renamed keys with the tag list, and the ignored property is dropped |
| Normalise.BaseAndOutputDisjoint | anytype_loader/loader.py:252-266 | the extracted keys never collide with the seven base metadata keys |
| Normalise.BaseMetadata | anytype_loader/loader.py:241-260 | the base metadata has exactly the seven base keys; `id` and `object_id` are both the object id; `space_name` is set exactly when the space id is in the name map, and is then the mapped name; `name` is always truthy: the object's truthy name, else "untitled" (also for a falsy name that is not None); `archived` is the bool of the object's `archived`; `type` is never None: the type dict's name, else "unknown" |
| Normalise.SentinelWarnings | anytype_loader/loader.py:244-250 | one warning per condition that holds and no other: the missing-type warning exactly when no type name was found, the missing-name warning exactly when `name` is None (not merely falsy), type first when both |
| Normalise.NormaliseObject | anytype_loader/loader.py:231-268 | a body without an object dict raises the API error; missing markdown is a skip with one warning; otherwise a record is emitted exactly when the properties extract, and an extraction exception propagates after the type and name sentinel warnings; it carries str(markdown), the base metadata with "unknown"/"untitled" fallbacks, and the extracted keys merged over it; the warnings are the type and then name sentinel warnings |
| Spaces.Insert | anytype_loader/loader.py:70 | storing a name keeps the id list and the map consistent and binds the id to the name; a known id keeps its place (the id list is unchanged) and a new id is appended last |
| Spaces.Collect | anytype_loader/loader.py:63-70 | the resolver's loop keeps a well-formed id map whose names were all asked for; it can only raise TypeError |
| Spaces.CollectRaises | anytype_loader/loader.py:63-70 | the loop raises exactly when some dict entry has an unhashable name, or is selected and has an unhashable id |
| Spaces.CollectPairs | anytype_loader/loader.py:63-70 | an id is in the map exactly when some dict entry with a wanted name has that truthy id, and its name is that of the last such entry |
| Spaces.ResolveSpaceIds | anytype_loader/loader.py:72-81 | the result is the loop's map when it is non-empty, and ValueError otherwise; exactly one unknown-spaces warning is issued, naming the wanted names missing from the map's values, exactly when some are missing |
| Spaces.ResolvesKnownSpaces | tests/test_loader.py:30-44 | two listed spaces whose names are both wanted resolve to both ids, in list order, with no warning |
| Spaces.WarnsForMissingSpaces | tests/test_loader.py:47-61 | a wanted name that is not listed is reported in one warning, and the other name still resolves |
| Pagination.Paginate | anytype_loader/loader.py:114-129 | the driver makes at most one call per scripted answer, and makes none only when there are no answers |
| Pagination.PaginateStops | anytype_loader/loader.py:116-129 | every call but the last got a page with `has_more`; the run finishes at the first page without it, raises at the first exception, or reaches the end of the script |
| Pagination.PaginateOffsets | anytype_loader/loader.py:115-126 | the k-th call asks for the offset reached by the ids of the calls before it, not k times the page size |
| Pagination.PaginateYields | anytype_loader/loader.py:123-124 | the ids yielded are the ids of the pages fetched, in order, stringified |
| Pagination.PaginateWarnings | anytype_loader/loader.py:120-121 | from offset 0, a warning loader warns once for each empty page at the head of the run; a loader without the flag never warns |
| Pagination.PaginateIgnoresTail | anytype_loader/loader.py:128-129 | once the driver has stopped, later answers are never requested |
| Pagination.IterObjectIds | anytype_loader/loader.py:114-129 | the package generator: calls at offsets 0, then the running id count; it continues only on `has_more`, and it consumes the whole script exactly when every answer is a page with `has_more`; it finishes at the first page without `has_more` and raises at the first exception, with that answer's error; it yields the stringified ids of the pages fetched and warns for the leading empty pages |
| Pagination.FollowsPagination | tests/test_loader.py:94-115 | pages of two and one ids yield all three in order, from calls at offsets 0 and 2 |
| Pagination.EmptyFirstPageWarns | anytype_loader/loader.py:120-121 | an empty first page is a warning and not an error |
| Legacy.KeptIds | anytype_loader.py:193-198 | each entry either gives a kept id or a skip warning, and the warnings are all skip warnings |
| Legacy.KeptIdsSplit | anytype_loader.py:193-198 | the kept ids and the warnings of a concatenation are those of its halves, in order |
| Legacy.KeptIdsAgree | anytype_loader.py:193-198 | when every entry has an id, nothing is skipped and the ids are the package's ids stringified |
| Legacy.ParseObjectsResponse | anytype_loader.py:186-207 | a body of the wrong shape gives an empty final page and one warning; otherwise it gives the kept ids, the `has_more` flag and the skip warnings, and never raises |
| Legacy.ParseAgrees | anytype_loader.py:186-207 | where the package parser succeeds, the older one returns the same page stringified with the same warnings; where the package raises, the older one warns about a skipped entry |
| Legacy.IterObjectIds | anytype_loader.py:103-114 | the older generator makes the same calls, yields the same ids and ends the same way as the package's, and never warns |
| Legacy.SameDriver | anytype_loader.py:103-114 | the empty-page warning flag changes only the warnings |
| Legacy.Collect | anytype_loader.py:56-64 | the older loop can only raise TypeError, and every id in its map was also found |
| Legacy.CollectNames | anytype_loader.py:59-64 | the older name map holds a string exactly when some selected entry's stringified id equals it, and binds it to the name of the last such entry |
| Legacy.CollectFinds | anytype_loader.py:56-64 | the older loop raises exactly on a dict entry with an unhashable name; the ids found are the stringified ids of the selected entries |
| Legacy.ResolveSpaceIds | anytype_loader.py:48-70 | the result is the set of ids found when there are any, and ValueError otherwise; there is no unknown-name warning; the name map is the loop's |
| Legacy.NonEmptyIds | anytype_loader.py:61-66 | no id found is the empty string, so the `if sid` filter drops nothing |
| Legacy.ResolveAgrees | anytype_loader.py:48-70 | where the package resolves, the older loader resolves the same spaces, with the ids stringified |
| Legacy.Contribution | anytype_loader.py:319-322 | reading a property succeeds exactly when it binds a hashable `key`; a non-dict raises TypeError, a missing key KeyError, an unhashable key TypeError; otherwise it contributes what the package's rule says |
| Legacy.ContributionAgrees | anytype_loader.py:319-322 | a property the older loader accepts contributes what the package's does; a dict without `key` contributes nothing to the package but raises in the older loader |
| Legacy.ExtractAll | anytype_loader.py:319-347 | the older fold over the property list yields only the five output keys |
| Legacy.ExtractRaises | anytype_loader.py:319-320 | the older fold raises exactly when some property does, with the error of the first such property |
| Legacy.ExtractAgrees | anytype_loader.py:319-347 | the older fold succeeds exactly when every property is accepted, and then equals the package's |
| Legacy.ExtractProperties | anytype_loader.py:306-349 | anything but a list gives {}; a success has only output keys and equals the package's result; failures are KeyError or TypeError; on a list it is the older fold, so a failure is the first failing property's error |
| Legacy.ExtractErrors | anytype_loader.py:319-320 | the older fold raises only KeyError or TypeError |
| Legacy.RequiredFields | anytype_loader.py:234-236 | `name`, `archived` and `type.name` are read exactly when each is bound; a failure is KeyError("name"), else KeyError("archived"), else KeyError("type"), else the error of `obj["type"]["name"]` (KeyError("name") on a dict, TypeError otherwise), in that order |
| Legacy.Metadata | anytype_loader.py:228-237 | the older metadata has the seven base keys plus `source`, the object url; `space_id`, `object_id` and `id` are the given ids; `space_name` is the mapped name or None; `archived` is `bool(obj["archived"])`; name and type are taken as they are |
| Legacy.MetadataAgrees | anytype_loader.py:228-237 | for every object whose required fields read, the older metadata without `source`, `name` and `type` is the package's without `name` and `type`; for a truthy name and a type name, the older metadata without `source` is the package's |
| Legacy.NormaliseObject | anytype_loader.py:210-245 | a body without an object dict, or an object without markdown, is a skip with one warning; otherwise a record is emitted exactly when name, archived and type.name are bound and the properties extract; a missing required field raises its KeyError or TypeError, and after that an extraction failure raises its error; an emitted record is the markdown with the older metadata and the extracted properties merged over it, and carries no warning |
| Legacy.PackageEmits | anytype_loader/loader.py:252-268 | the package emits the base metadata merged with the extracted properties, with the sentinel warnings |
| Legacy.PackageAgrees | anytype_loader/loader.py:241-268 | the package issues no sentinel warning when the name is truthy and the type name present |
| Legacy.NormaliseAgreesBeyondName | anytype_loader.py:222-245 | for an object with markdown whose required fields read and properties extract, whatever its name and type, both loaders emit the same content and the same metadata apart from `source`, `name` and `type` |
| Legacy.NormaliseAgrees | anytype_loader.py:210-245 | where the older loader emits a record for an object with a truthy name and a type name, the package emits the same record without `source` and without warnings |

## Left out

- Async code: `alazy_load`, the semaphore, `_aiter_object_ids`, `_alist_objects`, `_afetch_object`, `_arequest_with_retries` and the client lifecycle. They are concurrency wrappers around the same logic.
- HTTP: `requests` and `httpx` calls, URLs, query parameters, request bodies and timeouts. The choice of the `search` or `objects` endpoint depends on `query`, and the model does not follow it. Each call is reduced to its answer: a status with a body, or a raised exception.
- Sleeping: the delays are recorded as naturals and not slept. The float `retry_backoff = 1.0` is the natural 1.
- LangChain: `Document` is a record with content and metadata. `BaseLoader` is not modelled.
- Error message text: exceptions carry their kind and data, such as the status, the detail and the object id, but not the formatted message.
- JSON numbers: `Json` holds integers only, so floats in a body cannot be represented. No code path of the loader inspects a number beyond its truthiness and `str()`.
- Dict order: metadata is a `map`, so the insertion order of Python's metadata dict (base keys first, then extracted keys in property order) is not kept. Only the keys and values are modelled.
- Json.Repr: a dict with a repeated key prints every member, while Python's dict keeps one entry per key, at its first position with its last value. `Get` reads the last value, but `str()` of such a dict is not modelled exactly. String escaping in `repr()` is not modelled either.
- `repr()` string escaping, and the equality of `True` with 1 as dict keys.
- The older loader's `_list_objects` and `_list_spaces`: they call `requests` directly and raise `HTTPError` through `raise_for_status`. The model gives its pagination and resolver the listing answers and space entries directly.
- Legacy.ResolveSpaceIds: returns a set because `list({...})` has no defined order. The contract does not state the list order.
- Pagination.Paginate: runs over a finite script of answers. The source has no guard against a server that keeps answering `has_more` with an empty page, and such a run never ends; in the model it reaches the end of the script (`ScriptEnded`). The loop at anytype_loader/loader.py:126-129 ends only on a page without `has_more`, and the model follows it.
- Loader.Documents: its own contract states the length bound and which failure ends the run. Which records it yields is stated by `Loader.DocumentsWithoutFailure` and `Loader.DocumentsStopAtFailure`.
- `tests/test_loader.py:85-91` and `118-149` read fixture files that are not part of this model.

=== FILE: errors.dfy ===
/** The loader's exceptions, the built-in Python exceptions its code can raise
    on unexpected input, and its non-fatal diagnostics. */
module Errors {
  import opened Json

  /** What an AnytypeAPIError was raised for. */
  datatype Cause =
    | TransportFailure(reason: string)       // the HTTP library raised
    | BadStatus(status: int, detail: string) // a final status of 400 or above
    | MalformedObject(objectId: string)      // an object body without an `object` dict

  datatype Error =
    | ValueError(message: string)
    | APIError(cause: Cause)
    | AuthError(status: int, detail: string)
    // built-in exceptions the loader does not catch
    | KeyError(key: string)
    | TypeError
    | AttributeError
    | JSONDecodeError
  {
    /** isinstance(e, AnytypeAPIError): AnytypeAuthError is a subclass of it. */
    predicate IsAPIError() {
      APIError? || AuthError?
    }

    /** isinstance(e, ValueError): json's JSONDecodeError, and the one
        `response.json()` raises, are subclasses of it. */
    predicate IsValueError() {
      ValueError? || JSONDecodeError?
    }
  }

  datatype Result<+T> = Ok(value: T) | Err(error: Error) {
    predicate IsFailure() {
      Err?
    }

    function PropagateFailure<U>(): Result<U>
      requires Err?
    {
      Err(error)
    }

    function Extract(): T
      requires Ok?
    {
      value
    }
  }

  /** A check that either passes or raises. */
  datatype Outcome = Pass | Fail(error: Error)

  /** Python's `j[key]`: KeyError on a dict without the key, TypeError on
      anything that is not a dict. */
  function Index(j: Json, key: string): (r: Result<Json>)
    ensures r.Ok? <==> HasKey(j, key)
    ensures r.Ok? ==> r.value == Get(j, key)
    ensures r.Err? ==> r.error == (if j.JObj? then KeyError(key) else TypeError)
  {
    if !j.JObj? then Err(TypeError)
    else match Lookup(j.members, key)
      case Some(v) => Ok(v)
      case None => Err(KeyError(key))
  }

  /** A diagnostic event: a `warnings.warn` in the package, a `log.warning`
      in the older single-file loader. */
  datatype Warning =
    | UnknownSpaces(names: set<string>)
    | UnexpectedSpacesResponse
    | NoObjects(spaceId: Json)
    | UnexpectedListResponse
    | RateLimited(status: int, retry: nat, maxRetries: nat)
    | NoMarkdown(objectId: string)
    | MissingType(objectId: string)
    | MissingName(objectId: string)
    | SkippedEntryWithoutId(entry: Json)
    | UnexpectedObjectResponse(objectId: string)
}

=== FILE: json.dfy ===
/** Decoded JSON bodies as Python's json module hands them to the loader, and
    the handful of Python semantics the loader relies on when it inspects them:
    truthiness, dict.get, hashability and str(). */
module Json {

  datatype Option<+T> = None | Some(value: T)

  /** A decoded JSON value. Objects keep their members in document order.
      Numbers are integers only. */
  datatype Json =
    | JNull
    | JBool(b: bool)
    | JNum(n: int)
    | JStr(s: string)
    | JArr(items: seq<Json>)
    | JObj(members: seq<(string, Json)>)

  /** Python's bool(): None, False, 0, "", [] and {} are false, the rest true. */
  predicate Truthy(j: Json) {
    match j
    case JNull => false
    case JBool(b) => b
    case JNum(n) => n != 0
    case JStr(s) => s != ""
    case JArr(items) => items != []
    case JObj(members) => members != []
  }

  /** Lists and dicts cannot be set members or dict keys: hashing one raises TypeError. */
  predicate Hashable(j: Json) {
    !j.JArr? && !j.JObj?
  }

  /** The value bound to `key`; when a key repeats, json.loads keeps the last one. */
  function Lookup(members: seq<(string, Json)>, key: string): Option<Json>
    decreases |members|
  {
    if members == [] then None
    else if members[|members| - 1].0 == key then Some(members[|members| - 1].1)
    else Lookup(members[..|members| - 1], key)
  }

  /** A key is found exactly when some member carries it, and the value found
      is that of the last such member. */
  lemma {:induction false} LookupLast(members: seq<(string, Json)>, key: string)
    ensures Lookup(members, key).None? <==> forall i :: 0 <= i < |members| ==> members[i].0 != key
    ensures Lookup(members, key).Some? ==>
      exists i :: 0 <= i < |members| && members[i] == (key, Lookup(members, key).value) &&
        forall k :: i < k < |members| ==> members[k].0 != key
    decreases |members|
  {
    if members != [] && members[|members| - 1].0 != key {
      var init := members[..|members| - 1];
      LookupLast(init, key);
      assert forall i :: 0 <= i < |init| ==> init[i] == members[i];
    }
  }

  /** `j.get(key)` on a dict; JNull (Python's None) when the key is absent.
      A value that is not a dict reads as having no members, which is what
      every `x.get(k) if isinstance(x, dict) else None` in the loader means. */
  function Get(j: Json, key: string): Json {
    if j.JObj? then
      match Lookup(j.members, key)
      case Some(v) => v
      case None => JNull
    else JNull
  }

  /** `get` on a dict finds a key exactly when some member carries it, and
      then gives the last such member's value; a missing key, or a value that
      is not a dict, gives None. */
  lemma GetLast(j: Json, key: string)
    ensures !j.JObj? ==> Get(j, key) == JNull && !HasKey(j, key)
    ensures j.JObj? ==> (HasKey(j, key) <==> exists i :: 0 <= i < |j.members| && j.members[i].0 == key)
    ensures !HasKey(j, key) ==> Get(j, key) == JNull
    ensures HasKey(j, key) ==>
      exists i :: 0 <= i < |j.members| && j.members[i] == (key, Get(j, key)) &&
        forall k :: i < k < |j.members| ==> j.members[k].0 != key
  {
    if j.JObj? {
      LookupLast(j.members, key);
    }
  }

  /** The member at index i is what `get` finds when no later member repeats its key. */
  lemma GetMember(j: Json, i: nat)
    requires j.JObj? && i < |j.members|
    requires forall k :: i < k < |j.members| ==> j.members[k].0 != j.members[i].0
    ensures Get(j, j.members[i].0) == j.members[i].1
  {
    LookupLast(j.members, j.members[i].0);
  }

  /** The key is bound in the dict `j` (so `j[key]` does not raise). */
  predicate HasKey(j: Json, key: string) {
    j.JObj? && Lookup(j.members, key).Some?
  }

  function Digit(d: nat): char
    requires d < 10
  {
    "0123456789"[d]
  }

  /** Decimal digits of a natural number, most significant first. */
  function NatToString(n: nat): (r: string)
    ensures r != []
    decreases n
  {
    if n < 10 then [Digit(n)] else NatToString(n / 10) + [Digit(n % 10)]
  }

  /** Python's str() of an int. */
  function IntToString(n: int): string {
    if n < 0 then "-" + NatToString(-n) else NatToString(n)
  }

  /** `sep.join(parts)`. */
  function Join(parts: seq<string>, sep: string): string
    decreases |parts|
  {
    if parts == [] then ""
    else if |parts| == 1 then parts[0]
    else parts[0] + sep + Join(parts[1..], sep)
  }

  /** Python's repr() of a decoded value (string escaping is not modelled). */
  function Repr(j: Json): (r: string)
    ensures r != []
    decreases j
  {
    match j
    case JNull => "None"
    case JBool(b) => if b then "True" else "False"
    case JNum(n) =>
      var r := IntToString(n);
      assert r != [] by { assert NatToString(if n < 0 then -n else n) != []; }
      r
    case JStr(s) => "'" + s + "'"
    case JArr(items) =>
      "[" + Join(seq(|items|, i requires 0 <= i < |items| => Repr(items[i])), ", ") + "]"
    case JObj(members) =>
      "{" + Join(seq(|members|, i requires 0 <= i < |members| =>
                      "'" + members[i].0 + "': " + Repr(members[i].1)), ", ") + "}"
  }

  /** Python's str(): a string is itself, anything else its repr. */
  function PyStr(j: Json): string {
    if j.JStr? then j.s else Repr(j)
  }

  /** str() maps every value to a non-empty string except the empty string,
      so a truthy value never stringifies to "". */
  lemma PyStrEmpty(j: Json)
    ensures PyStr(j) == "" <==> j == JStr("")
    ensures Truthy(j) ==> PyStr(j) != ""
  {
  }

  /** `[str(x) for x in xs]`. */
  function Strs(xs: seq<Json>): (r: seq<string>)
    ensures |r| == |xs|
    ensures forall i :: 0 <= i < |xs| ==> r[i] == PyStr(xs[i])
  {
    seq(|xs|, i requires 0 <= i < |xs| => PyStr(xs[i]))
  }

  /** Lift strings into JSON string values: a list of str as the loader stores it. */
  function JStrs(xs: seq<string>): (r: seq<Json>)
    ensures |r| == |xs|
    ensures forall i :: 0 <= i < |xs| ==> r[i] == JStr(xs[i])
  {
    seq(|xs|, i requires 0 <= i < |xs| => JStr(xs[i]))
  }

  lemma StrsAppend(a: seq<Json>, b: seq<Json>)
    ensures Strs(a + b) == Strs(a) + Strs(b)
  {
  }
}

=== FILE: legacy.dfy ===
/** The older single-file loader (anytype_loader.py). It shares the package's
    shape but makes different choices: listing entries without an id are
    skipped and ids are stringified, space ids are stringified and returned as
    a set without an unknown-names warning, every property must carry a
    `key`, and a malformed object is skipped rather than raised while name,
    archived flag and type name are required. Each function is followed by the
    lemma that compares it with the package's. */
module Legacy {
  import opened Json
  import opened Errors
  import opened Normalise
  import opened Spaces
  import opened Pagination

  /* ----- listing parse ----- */

  /** `str(obj["id"])` for each entry; an entry whose lookup raises is logged
      and skipped. */
  function KeptIds(entries: seq<Json>): (r: (seq<string>, seq<Warning>))
    ensures |r.0| + |r.1| == |entries|
    ensures forall i :: 0 <= i < |r.1| ==> r.1[i].SkippedEntryWithoutId?
    decreases |entries|
  {
    if entries == [] then ([], [])
    else
      var (ids, skipped) := KeptIds(entries[1..]);
      if HasKey(entries[0], "id") then ([PyStr(Get(entries[0], "id"))] + ids, skipped)
      else (ids, [SkippedEntryWithoutId(entries[0])] + skipped)
  }

  /** The entries that carry an id are kept, stringified, in order; the others
      become one warning each, in order. */
  lemma {:induction false} KeptIdsSplit(entries: seq<Json>, a: seq<Json>, b: seq<Json>)
    requires entries == a + b
    ensures KeptIds(entries) == (KeptIds(a).0 + KeptIds(b).0, KeptIds(a).1 + KeptIds(b).1)
    decreases |a|
  {
    if a != [] {
      assert entries[0] == a[0];
      assert entries[1..] == a[1..] + b;
      KeptIdsSplit(entries[1..], a[1..], b);
      var (ai, aw) := KeptIds(a[1..]);
      var (bi, bw) := KeptIds(b);
      if HasKey(a[0], "id") {
        var x := PyStr(Get(a[0], "id"));
        assert KeptIds(a) == ([x] + ai, aw);
        assert KeptIds(entries) == ([x] + (ai + bi), aw + bw);
        assert [x] + (ai + bi) == ([x] + ai) + bi;
      } else {
        var w := SkippedEntryWithoutId(a[0]);
        assert KeptIds(a) == (ai, [w] + aw);
        assert KeptIds(entries) == (ai + bi, [w] + (aw + bw));
        assert [w] + (aw + bw) == ([w] + aw) + bw;
      }
    } else {
      assert entries == b;
      assert KeptIds(a) == ([], []);
      assert [] + KeptIds(b).0 == KeptIds(b).0 && [] + KeptIds(b).1 == KeptIds(b).1;
    }
  }

  /** When every entry has an id, nothing is skipped and the ids are those the
      package reads, stringified. */
  lemma {:induction false} KeptIdsAgree(entries: seq<Json>)
    requires IdsOf(entries).Ok?
    ensures KeptIds(entries) == (Strs(IdsOf(entries).value), [])
    decreases |entries|
  {
    if entries != [] {
      assert forall j :: 1 <= j < |entries| ==> entries[1..][j - 1] == entries[j];
      KeptIdsAgree(entries[1..]);
      var id := Get(entries[0], "id");
      assert HasKey(entries[0], "id");
      assert IdsOf(entries).value == [id] + IdsOf(entries[1..]).value;
      StrsAppend([id], IdsOf(entries[1..]).value);
      assert Strs([id]) == [PyStr(id)];
    }
  }

  /** The older `_parse_objects_response`: never raises. */
  function ParseObjectsResponse(data: Json): (r: (seq<string>, bool, seq<Warning>))
    ensures !ListingShaped(data) ==> r == ([], false, [UnexpectedListResponse])
    ensures ListingShaped(data) ==>
      r == (KeptIds(Get(data, "data").items).0, HasMore(data), KeptIds(Get(data, "data").items).1)
  {
    if ListingShaped(data) then
      var (ids, skipped) := KeptIds(Get(data, "data").items);
      (ids, HasMore(data), skipped)
    else ([], false, [UnexpectedListResponse])
  }

  /** Where the package's parser succeeds the older one returns the same page
      with its ids stringified; where the package raises on an entry without
      an id, the older one skips it. */
  lemma ParseAgrees(data: Json)
    ensures Normalise.ParseObjectsResponse(data).0.Ok? ==>
      var p := Normalise.ParseObjectsResponse(data);
      ParseObjectsResponse(data) == (Strs(p.0.value.ids), p.0.value.hasMore, p.1)
    ensures Normalise.ParseObjectsResponse(data).0.Err? ==> |ParseObjectsResponse(data).2| >= 1
  {
    if ListingShaped(data) {
      var entries := Get(data, "data").items;
      if IdsOf(entries).Ok? {
        KeptIdsAgree(entries);
      } else {
        var i :| 0 <= i < |entries| && !HasKey(entries[i], "id");
        KeptIdsSplit(entries, entries[..i], entries[i..]);
        assert entries[i..] == [entries[i]] + entries[i + 1..];
        KeptIdsSplit(entries[i..], [entries[i]], entries[i + 1..]);
      }
    }
  }

  /* ----- pagination ----- */

  /** The older `_iter_object_ids` over the pages its listing calls return. */
  function IterObjectIds(spaceId: Json, pageSize: int, answers: seq<Result<Page>>): (l: Listing)
    ensures l.warnings == []
    ensures var p := Pagination.IterObjectIds(spaceId, pageSize, answers);
      l.ids == p.ids && l.calls == p.calls && l.end == p.end
  {
    PaginateWarnings(spaceId, pageSize, false, answers, 0);
    SameDriver(spaceId, pageSize, answers, 0);
    Paginate(spaceId, pageSize, false, answers, 0)
  }

  /** The warning flag changes only the warnings. */
  lemma {:induction false} SameDriver(spaceId: Json, limit: int, answers: seq<Result<Page>>, offset: nat)
    ensures var a := Paginate(spaceId, limit, false, answers, offset);
      var b := Paginate(spaceId, limit, true, answers, offset);
      a.ids == b.ids && a.calls == b.calls && a.end == b.end
    decreases |answers|
  {
    if answers != [] && Continues(answers[0]) {
      SameDriver(spaceId, limit, answers[1..], offset + |answers[0].value.ids|);
    }
  }

  /* ----- space resolution ----- */

  /** The older resolver's state: the stringified ids in the order found, and
      the name map keyed by those strings. */
  datatype Found = Found(resolved: seq<string>, names: map<string, string>)

  /** The loop over the spaces list. Only the name is looked up in a set, so
      only an unhashable name raises. */
  function Collect(spaces: seq<Json>, wanted: set<string>): (r: Result<Found>)
    ensures r.Err? ==> r.error == TypeError
    ensures r.Ok? ==> forall s :: s in r.value.names ==> s in r.value.resolved
    decreases |spaces|
  {
    if spaces == [] then Ok(Found([], map[]))
    else
      match Collect(spaces[..|spaces| - 1], wanted)
      case Err(e) => Err(e)
      case Ok(acc) =>
        var space := spaces[|spaces| - 1];
        if !space.JObj? then Ok(acc)
        else if !Hashable(Get(space, "name")) then Err(TypeError)
        else if Selects(space, wanted) then
          var sid := PyStr(Get(space, "id"));
          Ok(Found(acc.resolved + [sid], acc.names[sid := Get(space, "name").s]))
        else Ok(acc)
  }

  /** The entry makes the older loop raise. */
  predicate BadName(space: Json) {
    space.JObj? && !Hashable(Get(space, "name"))
  }

  /** The ids found are the stringified ids of the selected entries, in order. */
  lemma {:induction false} CollectFinds(spaces: seq<Json>, wanted: set<string>, s: string)
    ensures Collect(spaces, wanted).Ok? <==> forall i :: 0 <= i < |spaces| ==> !BadName(spaces[i])
    ensures Collect(spaces, wanted).Ok? ==>
      (s in Collect(spaces, wanted).value.resolved <==>
        exists i :: 0 <= i < |spaces| && Selects(spaces[i], wanted) && PyStr(Get(spaces[i], "id")) == s)
    decreases |spaces|
  {
    if spaces != [] {
      var init := spaces[..|spaces| - 1];
      assert forall i :: 0 <= i < |init| ==> init[i] == spaces[i];
      CollectFinds(init, wanted, s);
    }
  }

  /** The entry's stringified id is where the older loop stores its name. */
  predicate BindsStr(space: Json, wanted: set<string>, s: string) {
    Selects(space, wanted) && PyStr(Get(space, "id")) == s
  }

  /** `names` holds `s` exactly when some entry binds it, with the name of
      the last entry that does. */
  predicate StrPairs(spaces: seq<Json>, wanted: set<string>, s: string, names: map<string, string>) {
    && (s in names <==> exists i :: 0 <= i < |spaces| && BindsStr(spaces[i], wanted, s))
    && (s in names ==>
          exists i :: 0 <= i < |spaces| && BindsStr(spaces[i], wanted, s) &&
            names[s] == Get(spaces[i], "name").s &&
            forall j :: i < j < |spaces| ==> !BindsStr(spaces[j], wanted, s))
  }

  /** One more entry: a selected entry binds its stringified id to its name,
      any other leaves the map alone. */
  lemma StrPairsStep(init: seq<Json>, space: Json, wanted: set<string>, s: string,
                     acc: map<string, string>, next: map<string, string>)
    requires StrPairs(init, wanted, s, acc)
    requires next == if Selects(space, wanted) then acc[PyStr(Get(space, "id")) := Get(space, "name").s] else acc
    ensures StrPairs(init + [space], wanted, s, next)
  {
    var spaces := init + [space];
    assert forall j :: 0 <= j < |init| ==> spaces[j] == init[j];
    if BindsStr(space, wanted, s) {
      assert BindsStr(spaces[|init|], wanted, s);
    } else {
      assert (exists i :: 0 <= i < |spaces| && BindsStr(spaces[i], wanted, s)) <==>
             (exists i :: 0 <= i < |init| && BindsStr(init[i], wanted, s));
      if s in next {
        var i :| 0 <= i < |init| && BindsStr(init[i], wanted, s) &&
          acc[s] == Get(init[i], "name").s &&
          forall j :: i < j < |init| ==> !BindsStr(init[j], wanted, s);
        assert BindsStr(spaces[i], wanted, s);
      }
    }
  }

  /** The older loop's step on the map alone. */
  lemma CollectNamesStep(spaces: seq<Json>, wanted: set<string>)
    requires spaces != [] && Collect(spaces, wanted).Ok?
    ensures Collect(spaces[..|spaces| - 1], wanted).Ok?
    ensures var acc := Collect(spaces[..|spaces| - 1], wanted).value.names;
      var space := spaces[|spaces| - 1];
      Collect(spaces, wanted).value.names ==
        if Selects(space, wanted) then acc[PyStr(Get(space, "id")) := Get(space, "name").s] else acc
  {
  }

  /** The older map holds exactly the stringified ids of the selected entries,
      each bound to the name of the last entry that selected it. */
  lemma {:induction false} CollectNames(spaces: seq<Json>, wanted: set<string>, s: string)
    requires Collect(spaces, wanted).Ok?
    ensures s in Collect(spaces, wanted).value.names <==>
      exists i :: 0 <= i < |spaces| && BindsStr(spaces[i], wanted, s)
    ensures s in Collect(spaces, wanted).value.names ==>
      exists i :: 0 <= i < |spaces| && BindsStr(spaces[i], wanted, s) &&
        Collect(spaces, wanted).value.names[s] == Get(spaces[i], "name").s &&
        forall j :: i < j < |spaces| ==> !BindsStr(spaces[j], wanted, s)
    decreases |spaces|
  {
    if spaces != [] {
      var init, space := spaces[..|spaces| - 1], spaces[|spaces| - 1];
      CollectNamesStep(spaces, wanted);
      CollectNames(init, wanted, s);
      StrPairsStep(init, space, wanted, s, Collect(init, wanted).value.names, Collect(spaces, wanted).value.names);
      assert init + [space] == spaces;
    }
  }

  /** The older `_resolve_space_ids`: the distinct non-empty ids found, as a
      set (the list built from it has no defined order); nothing found raises.
      The name map is kept even when it raises. */
  function ResolveSpaceIds(spaces: seq<Json>, wanted: set<string>): (r: (Result<set<string>>, map<string, string>))
    ensures Collect(spaces, wanted).Err? ==> r == (Err(TypeError), map[])
    ensures Collect(spaces, wanted).Ok? ==>
      var found := Collect(spaces, wanted).value;
      && r.1 == found.names
      && (r.0.Ok? <==> found.resolved != [])
      && (r.0.Ok? ==> forall s :: s in r.0.value <==> s in found.resolved)
      && (r.0.Err? ==> r.0.error == ValueError(NothingResolved))
  {
    match Collect(spaces, wanted)
    case Err(e) => (Err(e), map[])
    case Ok(found) =>
      var unique := set s | s in found.resolved && s != "";
      NonEmptyIds(spaces, wanted);
      assert found.resolved != [] ==> found.resolved[0] in unique;
      if unique == {} then
        (Err(ValueError(NothingResolved)), found.names)
      else (Ok(unique), found.names)
  }

  /** str() of a truthy id is never empty, so the `if sid` filter drops nothing. */
  lemma {:induction false} NonEmptyIds(spaces: seq<Json>, wanted: set<string>)
    requires Collect(spaces, wanted).Ok?
    ensures forall i :: 0 <= i < |Collect(spaces, wanted).value.resolved| ==>
      Collect(spaces, wanted).value.resolved[i] != ""
    decreases |spaces|
  {
    if spaces != [] {
      var init := spaces[..|spaces| - 1];
      NonEmptyIds(init, wanted);
      var space := spaces[|spaces| - 1];
      if Selects(space, wanted) {
        PyStrEmpty(Get(space, "id"));
      }
    }
  }

  /** Where the package resolves, the older loader resolves the same spaces:
      its ids are the package's ids, stringified. */
  lemma ResolveAgrees(spaces: seq<Json>, wanted: set<string>, s: string)
    requires Spaces.ResolveSpaceIds(spaces, wanted).0.Ok?
    ensures ResolveSpaceIds(spaces, wanted).0.Ok?
    ensures s in ResolveSpaceIds(spaces, wanted).0.value <==>
      exists k :: k in Spaces.ResolveSpaceIds(spaces, wanted).0.value.names && PyStr(k) == s
  {
    var res := Spaces.Collect(spaces, wanted).value;
    CollectRaises(spaces, wanted);
    CollectFinds(spaces, wanted, s);
    assert Collect(spaces, wanted).Ok?;
    var sid :| sid in res.names;
    CollectPairs(spaces, wanted, sid);
    var i :| 0 <= i < |spaces| && Binds(spaces[i], wanted, sid);
    CollectFinds(spaces, wanted, PyStr(sid));
    assert PyStr(Get(spaces[i], "id")) == PyStr(sid);
    var found := Collect(spaces, wanted).value;
    assert found.resolved != [];
    if s in ResolveSpaceIds(spaces, wanted).0.value {
      var j :| 0 <= j < |spaces| && Selects(spaces[j], wanted) && PyStr(Get(spaces[j], "id")) == s;
      CollectPairs(spaces, wanted, Get(spaces[j], "id"));
      assert Binds(spaces[j], wanted, Get(spaces[j], "id"));
    }
    if exists k :: k in res.names && PyStr(k) == s {
      var k :| k in res.names && PyStr(k) == s;
      CollectPairs(spaces, wanted, k);
    }
  }

  /* ----- property extraction ----- */

  /** One property as the older loader reads it: `prop["key"]` raises
      KeyError on a dict without it and TypeError on anything else. */
  function Contribution(prop: Json): (r: Result<map<string, Json>>)
    ensures r.Ok? <==> HasKey(prop, "key") && Hashable(Get(prop, "key"))
    ensures r.Ok? ==> r.value == KeyedContribution(Get(prop, "key"), prop)
    ensures r.Err? ==> r.error == (if !prop.JObj? then TypeError
                                   else if !HasKey(prop, "key") then KeyError("key")
                                   else TypeError)
  {
    match Index(prop, "key")
    case Err(e) => Err(e)
    case Ok(key) => if !Hashable(key) then Err(TypeError) else Ok(KeyedContribution(key, prop))
  }

  /** A property the older loader accepts contributes what the package's
      does; a dict without a key is dropped by the package but raises here. */
  lemma ContributionAgrees(prop: Json)
    ensures Contribution(prop).Ok? ==> Normalise.Contribution(prop) == Contribution(prop)
    ensures prop.JObj? && !HasKey(prop, "key") ==>
      Normalise.Contribution(prop) == Ok(map[]) && Contribution(prop) == Err(KeyError("key"))
  {
  }

  /** The older fold over a property list. */
  function ExtractAll(props: seq<Json>): (r: Result<map<string, Json>>)
    ensures r.Ok? ==> r.value.Keys <= OutputKeys
    decreases |props|
  {
    if props == [] then Ok(map[])
    else
      match ExtractAll(props[..|props| - 1])
      case Err(e) => Err(e)
      case Ok(acc) =>
        match Contribution(props[|props| - 1])
        case Err(e) => Err(e)
        case Ok(c) => Ok(acc + c)
  }

  /** The older fold raises exactly when some property does, and then with the
      error of the first such property. */
  lemma {:induction false} ExtractRaises(props: seq<Json>)
    ensures ExtractAll(props).Ok? <==> forall i :: 0 <= i < |props| ==> Contribution(props[i]).Ok?
    ensures ExtractAll(props).Err? ==>
      exists i :: 0 <= i < |props| && Contribution(props[i]).Err? &&
        ExtractAll(props).error == Contribution(props[i]).error &&
        forall j :: 0 <= j < i ==> Contribution(props[j]).Ok?
    decreases |props|
  {
    if props != [] {
      var init := props[..|props| - 1];
      assert forall j :: 0 <= j < |init| ==> init[j] == props[j];
      ExtractRaises(init);
    }
  }

  /** Where the older fold succeeds it computes the package's result, so every
      property of the package's extraction carries over. */
  lemma {:induction false} ExtractAgrees(props: seq<Json>)
    ensures ExtractAll(props).Ok? <==> forall i :: 0 <= i < |props| ==> Contribution(props[i]).Ok?
    ensures ExtractAll(props).Ok? ==> Normalise.ExtractAll(props) == ExtractAll(props)
    decreases |props|
  {
    if props != [] {
      var init := props[..|props| - 1];
      assert forall j :: 0 <= j < |init| ==> init[j] == props[j];
      ExtractAgrees(init);
      ContributionAgrees(props[|props| - 1]);
    }
  }

  /** The older `_extract_properties`: anything but a list yields an empty dict. */
  function ExtractProperties(properties: Json): (r: Result<map<string, Json>>)
    ensures !properties.JArr? ==> r == Ok(map[])
    ensures r.Ok? ==> r.value.Keys <= OutputKeys
    ensures r.Ok? ==> Normalise.ExtractProperties(properties) == r
    ensures r.Err? ==> r.error.KeyError? || r.error.TypeError?
    ensures properties.JArr? ==> r == ExtractAll(properties.items)
  {
    if properties.JArr? then
      ExtractAgrees(properties.items);
      ExtractErrors(properties.items);
      ExtractAll(properties.items)
    else Ok(map[])
  }

  lemma {:induction false} ExtractErrors(props: seq<Json>)
    ensures ExtractAll(props).Err? ==> ExtractAll(props).error.KeyError? || ExtractAll(props).error.TypeError?
    decreases |props|
  {
    if props != [] {
      ExtractErrors(props[..|props| - 1]);
    }
  }

  /* ----- object normalisation ----- */

  /** The metadata keys every record of the older loader carries. */
  const LegacyBaseKeys: set<string> := BaseKeys + {"source"}

  /** The url the object was fetched from, recorded as its `source`. */
  function ObjectUrl(baseUrl: string, spaceId: string, objectId: string): string {
    baseUrl + "/v1/spaces/" + spaceId + "/objects/" + objectId
  }

  /** The fields the older loader indexes directly. */
  datatype Required = Required(name: Json, archived: Json, typeName: Json)

  /** `obj["name"]`, `obj["archived"]` and `obj["type"]["name"]`, in that order. */
  function RequiredFields(obj: Json): (r: Result<Required>)
    requires obj.JObj?
    ensures r.Ok? <==> HasKey(obj, "name") && HasKey(obj, "archived") && HasKey(Get(obj, "type"), "name")
    ensures r.Ok? ==> r.value == Required(Get(obj, "name"), Get(obj, "archived"), Get(Get(obj, "type"), "name"))
    ensures r.Err? ==> r.error.KeyError? || r.error.TypeError?
    ensures r.Err? ==>
              r.error == (if !HasKey(obj, "name") then KeyError("name")
                          else if !HasKey(obj, "archived") then KeyError("archived")
                          else if !HasKey(obj, "type") then KeyError("type")
                          else Index(Get(obj, "type"), "name").error)
  {
    var name :- Index(obj, "name");
    var archived :- Index(obj, "archived");
    var objType :- Index(obj, "type");
    var typeName :- Index(objType, "name");
    Ok(Required(name, archived, typeName))
  }

  /** The older metadata: the package's base keys without sentinels, plus `source`. */
  function Metadata(baseUrl: string, spaceId: string, spaceNames: map<string, string>,
                    objectId: string, fields: Required): (m: map<string, Json>)
    ensures m.Keys == LegacyBaseKeys
    ensures m["source"] == JStr(ObjectUrl(baseUrl, spaceId, objectId))
    ensures m["name"] == fields.name && m["type"] == fields.typeName
    ensures m["space_id"] == JStr(spaceId)
    ensures m["id"] == m["object_id"] == JStr(objectId)
    ensures m["space_name"] == if spaceId in spaceNames then JStr(spaceNames[spaceId]) else JNull
    ensures m["archived"] == JBool(Truthy(fields.archived))
  {
    map[
      "space_id" := JStr(spaceId),
      "space_name" := if spaceId in spaceNames then JStr(spaceNames[spaceId]) else JNull,
      "object_id" := JStr(objectId),
      "id" := JStr(objectId),
      "source" := JStr(ObjectUrl(baseUrl, spaceId, objectId)),
      "name" := fields.name,
      "archived" := JBool(Truthy(fields.archived)),
      "type" := fields.typeName]
  }

  /** Without `source`, name and type, the older metadata is the package's
      for every object; without `source` alone it is the package's whenever the
      package's sentinels do not apply and the space names agree. */
  lemma MetadataAgrees(baseUrl: string, spaceId: string, spaceNames: map<string, string>,
                       packageNames: map<Json, string>, objectId: string, obj: Json)
    requires obj.JObj? && RequiredFields(obj).Ok?
    requires SpaceName(packageNames, JStr(spaceId)) ==
      (if spaceId in spaceNames then JStr(spaceNames[spaceId]) else JNull)
    ensures Metadata(baseUrl, spaceId, spaceNames, objectId, RequiredFields(obj).value) - {"source", "name", "type"} ==
      BaseMetadata(JStr(spaceId), packageNames, objectId, obj) - {"name", "type"}
    ensures Truthy(Get(obj, "name")) && Get(Get(obj, "type"), "name") != JNull ==>
      Metadata(baseUrl, spaceId, spaceNames, objectId, RequiredFields(obj).value) - {"source"} ==
      BaseMetadata(JStr(spaceId), packageNames, objectId, obj)
  {
    var lm := Metadata(baseUrl, spaceId, spaceNames, objectId, RequiredFields(obj).value);
    var pm := BaseMetadata(JStr(spaceId), packageNames, objectId, obj);
    assert TypeName(obj) == Get(Get(obj, "type"), "name");
    assert (lm - {"source", "name", "type"}).Keys == (pm - {"name", "type"}).Keys;
    if Truthy(Get(obj, "name")) && Get(Get(obj, "type"), "name") != JNull {
      assert (lm - {"source"}).Keys == pm.Keys;
    }
  }

  /** The older normalisation of a decoded object body. A body without an
      `object` dict, or an object without markdown, is skipped with a warning;
      a missing name, archived flag or type name raises. */
  function NormaliseObject(baseUrl: string, spaceId: string, spaceNames: map<string, string>,
                           objectId: string, data: Json): (r: (Fetched, seq<Warning>))
    ensures !Get(data, "object").JObj? ==> r == (Skipped, [UnexpectedObjectResponse(objectId)])
    ensures Get(data, "object").JObj? && Get(Get(data, "object"), "markdown") == JNull ==>
      r == (Skipped, [NoMarkdown(objectId)])
    ensures r.0.Skipped? <==> !Get(data, "object").JObj? || Get(Get(data, "object"), "markdown") == JNull
    ensures r.0.Failed? ==> r.0.error.KeyError? || r.0.error.TypeError?
    ensures Get(data, "object").JObj? && Get(Get(data, "object"), "markdown") != JNull ==>
      (r.0.Emitted? <==>
         RequiredFields(Get(data, "object")).Ok? && ExtractProperties(Get(Get(data, "object"), "properties")).Ok?)
    ensures (Get(data, "object").JObj? && Get(Get(data, "object"), "markdown") != JNull &&
             RequiredFields(Get(data, "object")).Err?) ==>
      r.0 == Failed(RequiredFields(Get(data, "object")).error)
    ensures (Get(data, "object").JObj? && Get(Get(data, "object"), "markdown") != JNull &&
             RequiredFields(Get(data, "object")).Ok? && ExtractProperties(Get(Get(data, "object"), "properties")).Err?) ==>
      r.0 == Failed(ExtractProperties(Get(Get(data, "object"), "properties")).error)
    ensures !r.0.Skipped? ==> r.1 == []
    ensures r.0.Emitted? ==>
      var obj := Get(data, "object");
      && RequiredFields(obj).Ok?
      && ExtractProperties(Get(obj, "properties")).Ok?
      && r.0.record.content == PyStr(Get(obj, "markdown"))
      && r.0.record.metadata ==
           Metadata(baseUrl, spaceId, spaceNames, objectId, RequiredFields(obj).value) +
           ExtractProperties(Get(obj, "properties")).value
    ensures r.0.Emitted? ==>
      r.0.record.metadata.Keys == LegacyBaseKeys + ExtractProperties(Get(Get(data, "object"), "properties")).value.Keys
  {
    var obj := Get(data, "object");
    if !obj.JObj? then (Skipped, [UnexpectedObjectResponse(objectId)])
    else if Get(obj, "markdown") == JNull then (Skipped, [NoMarkdown(objectId)])
    else
      match RequiredFields(obj)
      case Err(e) => (Failed(e), [])
      case Ok(fields) =>
        match ExtractProperties(Get(obj, "properties"))
        case Err(e) => (Failed(e), [])
        case Ok(extracted) =>
          var metadata := Metadata(baseUrl, spaceId, spaceNames, objectId, fields);
          (Emitted(Record(PyStr(Get(obj, "markdown")), metadata + extracted)), [])
  }

  /** The package's record for an object with markdown whose properties extract. */
  lemma PackageEmits(spaceId: Json, packageNames: map<Json, string>, objectId: string, data: Json)
    requires Get(data, "object").JObj? && Get(Get(data, "object"), "markdown") != JNull
    requires Normalise.ExtractProperties(Get(Get(data, "object"), "properties")).Ok?
    ensures var obj := Get(data, "object");
      Normalise.NormaliseObject(spaceId, packageNames, objectId, data) ==
        (Emitted(Record(PyStr(Get(obj, "markdown")),
                        BaseMetadata(spaceId, packageNames, objectId, obj) +
                        Normalise.ExtractProperties(Get(obj, "properties")).value)),
         SentinelWarnings(objectId, obj))
  {
  }

  /** An object with markdown, its required fields and properties that
      extract: both loaders emit the same content, and the same metadata apart
      from `source`, `name` and `type`, whatever the name and type are. */
  lemma NormaliseAgreesBeyondName(baseUrl: string, spaceId: string, spaceNames: map<string, string>,
                                  packageNames: map<Json, string>, objectId: string, data: Json)
    requires Get(data, "object").JObj? && Get(Get(data, "object"), "markdown") != JNull
    requires RequiredFields(Get(data, "object")).Ok?
    requires ExtractProperties(Get(Get(data, "object"), "properties")).Ok?
    requires SpaceName(packageNames, JStr(spaceId)) ==
      (if spaceId in spaceNames then JStr(spaceNames[spaceId]) else JNull)
    ensures var p := Normalise.NormaliseObject(JStr(spaceId), packageNames, objectId, data);
      var l := NormaliseObject(baseUrl, spaceId, spaceNames, objectId, data);
      && l.0.Emitted? && p.0.Emitted?
      && p.0.record.content == l.0.record.content
      && p.0.record.metadata - {"name", "type"} == l.0.record.metadata - {"source", "name", "type"}
  {
    var obj := Get(data, "object");
    var extracted := ExtractProperties(Get(obj, "properties")).value;
    var lm := Metadata(baseUrl, spaceId, spaceNames, objectId, RequiredFields(obj).value);
    var base := BaseMetadata(JStr(spaceId), packageNames, objectId, obj);
    MetadataAgrees(baseUrl, spaceId, spaceNames, packageNames, objectId, obj);
    PackageEmits(JStr(spaceId), packageNames, objectId, data);
    assert NormaliseObject(baseUrl, spaceId, spaceNames, objectId, data).0 ==
      Emitted(Record(PyStr(Get(obj, "markdown")), lm + extracted));
    AssembleBeyondName(Normalise.NormaliseObject(JStr(spaceId), packageNames, objectId, data).0,
                       NormaliseObject(baseUrl, spaceId, spaceNames, objectId, data).0,
                       PyStr(Get(obj, "markdown")), lm, base, extracted);
  }

  /** An object with markdown, its required fields, properties that extract,
      a truthy name and a type name: the older loader emits a record, and the
      package emits the same record without `source` and without warnings. */
  lemma NormaliseAgrees(baseUrl: string, spaceId: string, spaceNames: map<string, string>,
                        packageNames: map<Json, string>, objectId: string, data: Json)
    requires Get(data, "object").JObj? && Get(Get(data, "object"), "markdown") != JNull
    requires RequiredFields(Get(data, "object")).Ok?
    requires ExtractProperties(Get(Get(data, "object"), "properties")).Ok?
    requires Truthy(Get(Get(data, "object"), "name"))
    requires Get(Get(Get(data, "object"), "type"), "name") != JNull
    requires SpaceName(packageNames, JStr(spaceId)) ==
      (if spaceId in spaceNames then JStr(spaceNames[spaceId]) else JNull)
    ensures var p := Normalise.NormaliseObject(JStr(spaceId), packageNames, objectId, data);
      var l := NormaliseObject(baseUrl, spaceId, spaceNames, objectId, data);
      l.0.Emitted? && p == (Emitted(Record(l.0.record.content, l.0.record.metadata - {"source"})), [])
  {
    var obj := Get(data, "object");
    var extracted := ExtractProperties(Get(obj, "properties")).value;
    var lm := Metadata(baseUrl, spaceId, spaceNames, objectId, RequiredFields(obj).value);
    var base := BaseMetadata(JStr(spaceId), packageNames, objectId, obj);
    assert NormaliseObject(baseUrl, spaceId, spaceNames, objectId, data).0 == Emitted(Record(PyStr(Get(obj, "markdown")), lm + extracted));
    PackageAgrees(JStr(spaceId), packageNames, objectId, data);
    MetadataAgrees(baseUrl, spaceId, spaceNames, packageNames, objectId, obj);
    NoSource(extracted);
    Assemble(Normalise.NormaliseObject(JStr(spaceId), packageNames, objectId, data),
             NormaliseObject(baseUrl, spaceId, spaceNames, objectId, data).0,
             PyStr(Get(obj, "markdown")), lm, base, extracted);
  }

  /** The package emits without warnings when neither sentinel applies. */
  lemma PackageAgrees(spaceId: Json, packageNames: map<Json, string>, objectId: string, data: Json)
    requires Get(data, "object").JObj? && Get(Get(data, "object"), "markdown") != JNull
    requires Normalise.ExtractProperties(Get(Get(data, "object"), "properties")).Ok?
    requires Truthy(Get(Get(data, "object"), "name"))
    requires Get(Get(Get(data, "object"), "type"), "name") != JNull
    ensures var obj := Get(data, "object");
      Normalise.NormaliseObject(spaceId, packageNames, objectId, data) ==
        (Emitted(Record(PyStr(Get(obj, "markdown")),
                        BaseMetadata(spaceId, packageNames, objectId, obj) +
                        Normalise.ExtractProperties(Get(obj, "properties")).value)), [])
  {
    var obj := Get(data, "object");
    PackageEmits(spaceId, packageNames, objectId, data);
    assert TypeName(obj) == Get(Get(obj, "type"), "name");
    assert SentinelWarnings(objectId, obj) == [];
  }

  /** Extracted properties never carry `source`. */
  lemma NoSource(extracted: map<string, Json>)
    requires extracted.Keys <= OutputKeys
    ensures "source" !in extracted
  {
  }

  /** The two records agree once `source` is removed from the older one. */
  lemma Assemble(p: (Fetched, seq<Warning>), l: Fetched, content: string,
                 lm: map<string, Json>, base: map<string, Json>, extracted: map<string, Json>)
    requires p == (Emitted(Record(content, base + extracted)), [])
    requires l == Emitted(Record(content, lm + extracted))
    requires lm - {"source"} == base && "source" !in extracted
    ensures p == (Emitted(Record(l.record.content, l.record.metadata - {"source"})), [])
  {
    MergeWithout(lm, extracted, "source");
  }

  /** The two records agree once `source`, `name` and `type` are removed. */
  lemma AssembleBeyondName(p: Fetched, l: Fetched, content: string,
                           lm: map<string, Json>, base: map<string, Json>, extracted: map<string, Json>)
    requires p == Emitted(Record(content, base + extracted))
    requires l == Emitted(Record(content, lm + extracted))
    requires lm - {"source", "name", "type"} == base - {"name", "type"}
    requires extracted.Keys <= OutputKeys
    ensures p.record.metadata - {"name", "type"} == l.record.metadata - {"source", "name", "type"}
  {
    MergeWithoutAll(lm, extracted, {"source", "name", "type"});
    MergeWithoutAll(base, extracted, {"name", "type"});
  }

  /** Removing keys the right operand lacks commutes with the merge. */
  lemma MergeWithoutAll<K, V>(x: map<K, V>, y: map<K, V>, ks: set<K>)
    requires ks !! y.Keys
    ensures (x + y) - ks == (x - ks) + y
  {
    assert ((x + y) - ks).Keys == ((x - ks) + y).Keys;
  }

  /** Removing a key the right operand lacks commutes with the merge. */
  lemma MergeWithout<K, V>(x: map<K, V>, y: map<K, V>, k: K)
    requires k !in y
    ensures (x + y) - {k} == (x - {k}) + y
  {
    assert ((x + y) - {k}).Keys == ((x - {k}) + y).Keys;
  }
}

=== FILE: loader.dfy ===
/** The package loader `AnytypeLoader` (anytype_loader/loader.py) put
    together: constructor validation, the requests it builds, and each
    endpoint call as the retry adapter's run followed by JSON decoding and
    the matching normaliser. */
module Loader {
  import opened Json
  import opened Errors
  import opened Transport
  import opened Normalise
  import opened Spaces

  /** A constructed loader. `query` is None or the search text. */
  datatype Loader = Loader(
    baseUrl: string,
    apiKey: string,
    pageSize: int,
    query: Option<string>,
    maxConcurrency: int,
    spaceIds: seq<Json>,
    spaceNames: map<Json, string>)

  const MissingCredentials: string := "url and api_key are required"
  const MissingSpaceNames: string := "At least one space name is required"

  /** `url.rstrip("/")`: the url without its trailing slashes. */
  function RStripSlash(url: string): (r: string)
    ensures r <= url
    ensures r == [] || r[|r| - 1] != '/'
    ensures forall i :: |r| <= i < |url| ==> url[i] == '/'
    decreases |url|
  {
    if url != [] && url[|url| - 1] == '/' then RStripSlash(url[..|url| - 1]) else url
  }

  /** Stripping twice strips nothing more. */
  lemma RStripIdempotent(url: string)
    ensures RStripSlash(RStripSlash(url)) == RStripSlash(url)
  {
  }

  /** The constructor's checks, made before any request: both credentials,
      then at least one space name. */
  function Validate(url: string, apiKey: string, spaceNames: seq<string>): (r: Outcome)
    ensures r.Pass? <==> url != "" && apiKey != "" && spaceNames != []
    ensures r.Fail? ==> r.error.ValueError?
    ensures (url == "" || apiKey == "") ==> r == Fail(ValueError(MissingCredentials))
  {
    if url == "" || apiKey == "" then Fail(ValueError(MissingCredentials))
    else if spaceNames == [] then Fail(ValueError(MissingSpaceNames))
    else Pass
  }

  /** `set(space_names)`. */
  function Wanted(spaceNames: seq<string>): (w: set<string>)
    ensures forall n :: n in w <==> n in spaceNames
  {
    set n | n in spaceNames
  }

  /** What constructing a loader observably did: the loader or the exception,
      how many HTTP calls it made and the warnings it issued. */
  datatype InitRun = InitRun(result: Result<Loader>, calls: nat, warnings: seq<Warning>)

  /** `__init__`: validate, then list the spaces through the retry adapter and
      resolve the wanted names. `transport(k)` is the HTTP library's k-th answer. */
  function Init(url: string, apiKey: string, spaceNames: seq<string>, pageSize: int,
                query: Option<string>, maxConcurrency: int, transport: nat -> Exchange): (r: InitRun)
    ensures Validate(url, apiKey, spaceNames).Fail? ==>
      r == InitRun(Err(Validate(url, apiKey, spaceNames).error), 0, [])
    ensures Validate(url, apiKey, spaceNames).Pass? ==> 1 <= r.calls <= MaxRetries + 1
    ensures r.result.Ok? ==>
      && Validate(url, apiKey, spaceNames).Pass?
      && r.result.value.baseUrl == RStripSlash(url)
      && r.result.value.apiKey == apiKey
      && r.result.value.pageSize == pageSize
      && r.result.value.query == query
      && r.result.value.maxConcurrency == maxConcurrency
      && r.result.value.spaceIds != []
      && WellFormed(Resolution(r.result.value.spaceIds, r.result.value.spaceNames))
      && (forall sid :: sid in r.result.value.spaceNames ==> r.result.value.spaceNames[sid] in spaceNames)
    ensures r.result.Err? && r.result.error.IsValueError() && r.calls > 0 ==>
      r.result.error == ValueError(NothingResolved) || r.result.error == JSONDecodeError
    ensures Validate(url, apiKey, spaceNames).Pass? ==>
      var run := Request(transport);
      && r.calls == run.calls
      && (run.result.Err? ==> r == InitRun(Err(run.result.error), run.calls, run.warnings))
      && (r.result.Ok? ==> run.result.Ok? && run.result.value.body.Decoded?)
      && (run.result.Ok? && run.result.value.body.Undecodable? ==>
            r == InitRun(Err(JSONDecodeError), run.calls, run.warnings))
      && (run.result.Ok? && run.result.value.body.Decoded? ==>
            var listed := ListSpaces(run.result.value.body.json);
            var resolved := ResolveSpaceIds(listed.0, Wanted(spaceNames));
            && r.warnings == run.warnings + listed.1 + resolved.1
            && (r.result.Ok? <==> resolved.0.Ok?)
            && (resolved.0.Err? ==> r.result.error == resolved.0.error)
            && (resolved.0.Ok? ==>
                  Resolution(r.result.value.spaceIds, r.result.value.spaceNames) == resolved.0.value))
  {
    match Validate(url, apiKey, spaceNames)
    case Fail(e) => InitRun(Err(e), 0, [])
    case Pass =>
      var run := Request(transport);
      match run.result
      case Err(e) => InitRun(Err(e), run.calls, run.warnings)
      case Ok(response) =>
        match response.body
        case Undecodable(_) => InitRun(Err(JSONDecodeError), run.calls, run.warnings)
        case Decoded(data) =>
          var (spaces, listed) := ListSpaces(data);
          var (resolved, unknown) := ResolveSpaceIds(spaces, Wanted(spaceNames));
          var warnings := run.warnings + listed + unknown;
          match resolved
          case Err(e) => InitRun(Err(e), run.calls, warnings)
          case Ok(res) =>
            InitRun(Ok(Loader(RStripSlash(url), apiKey, pageSize, query, maxConcurrency, res.ids, res.names)),
                    run.calls, warnings)
  }

  /** The package's constructor test: empty credentials raise ValueError
      without a single request. */
  lemma InitRequiresCredentials(spaceNames: seq<string>, pageSize: int, query: Option<string>,
                                maxConcurrency: int, transport: nat -> Exchange)
    ensures Init("", "", spaceNames, pageSize, query, maxConcurrency, transport) ==
      InitRun(Err(ValueError(MissingCredentials)), 0, [])
  {
  }

  /** Decode the adapter's response: its JSON, or JSONDecodeError. */
  function DecodeBody(response: Response): (r: Result<Json>)
    ensures r.Ok? <==> response.body.Decoded?
    ensures r.Ok? ==> r.value == response.body.json
    ensures r.Err? ==> r.error == JSONDecodeError
  {
    match response.body
    case Decoded(j) => Ok(j)
    case Undecodable(_) => Err(JSONDecodeError)
  }

  /** The adapter's run for one request with the loader's retry settings. */
  function Request(transport: nat -> Exchange): RetryRun {
    RequestWithRetries(transport, MaxRetries, RetryBackoff, 0)
  }

  /** `_list_objects`: one request through the retry adapter, its body decoded
      and parsed. A page comes only from a final answer below 400 whose body
      decodes; an exception is the adapter's API error, a decoding error, or
      the parser's KeyError or TypeError. The adapter's warnings come first. */
  function ListObjects(transport: nat -> Exchange): (r: (Result<Page>, seq<Warning>))
    ensures var run := Request(transport);
      && (run.result.Err? ==> r == (Err(run.result.error), run.warnings))
      && (r.0.Ok? ==>
            && transport(run.calls - 1).Answered?
            && transport(run.calls - 1).response.status < 400
            && transport(run.calls - 1).response.body.Decoded?
            && r.0 == ParseObjectsResponse(transport(run.calls - 1).response.body.json).0)
      && |run.warnings| <= |r.1| && r.1[..|run.warnings|] == run.warnings
    ensures var run := Request(transport);
      && (run.result.Ok? && run.result.value.body.Undecodable? ==> r == (Err(JSONDecodeError), run.warnings))
      && (run.result.Ok? && run.result.value.body.Decoded? ==>
            r == (ParseObjectsResponse(run.result.value.body.json).0,
                  run.warnings + ParseObjectsResponse(run.result.value.body.json).1))
    ensures r.0.Err? ==>
      r.0.error.IsAPIError() || r.0.error == JSONDecodeError || r.0.error == TypeError || r.0.error == KeyError("id")
  {
    var run := Request(transport);
    match run.result
    case Err(e) => (Err(e), run.warnings)
    case Ok(response) =>
      match DecodeBody(response)
      case Err(e) => (Err(e), run.warnings)
      case Ok(data) =>
        var (page, ws) := ParseObjectsResponse(data);
        (page, run.warnings + ws)
  }

  /** `_fetch_object`: one request through the retry adapter, its body decoded
      and normalised. A record comes only from a final answer below 400 whose
      body decodes; the adapter's warnings come first. */
  function FetchObject(loader: Loader, spaceId: Json, objectId: string, transport: nat -> Exchange): (r: (Fetched, seq<Warning>))
    ensures var run := Request(transport);
      && (run.result.Err? ==> r == (Failed(run.result.error), run.warnings))
      && (!r.0.Failed? ==>
            && transport(run.calls - 1).Answered?
            && transport(run.calls - 1).response.status < 400
            && transport(run.calls - 1).response.body.Decoded?
            && r == (NormaliseObject(spaceId, loader.spaceNames, objectId, transport(run.calls - 1).response.body.json).0,
                     run.warnings + NormaliseObject(spaceId, loader.spaceNames, objectId,
                                                    transport(run.calls - 1).response.body.json).1))
    ensures var run := Request(transport);
      && (run.result.Ok? && run.result.value.body.Undecodable? ==> r == (Failed(JSONDecodeError), run.warnings))
      && (run.result.Ok? && run.result.value.body.Decoded? ==>
            r == (NormaliseObject(spaceId, loader.spaceNames, objectId, run.result.value.body.json).0,
                  run.warnings + NormaliseObject(spaceId, loader.spaceNames, objectId, run.result.value.body.json).1))
    ensures r.0.Failed? ==>
      r.0.error.IsAPIError() || r.0.error in {JSONDecodeError, TypeError, AttributeError}
  {
    var run := Request(transport);
    match run.result
    case Err(e) => (Failed(e), run.warnings)
    case Ok(response) =>
      match DecodeBody(response)
      case Err(e) => (Failed(e), run.warnings)
      case Ok(data) =>
        var (fetched, ws) := NormaliseObject(spaceId, loader.spaceNames, objectId, data);
        (fetched, run.warnings + ws)
  }

  /** The records among fetch results, in order. */
  function Records(fetched: seq<Fetched>): (rs: seq<Record>)
    ensures |rs| <= |fetched|
    decreases |fetched|
  {
    if fetched == [] then []
    else (if fetched[0].Emitted? then [fetched[0].record] else []) + Records(fetched[1..])
  }

  /** The documents `lazy_load` yields from the fetch results of its objects,
      in order: skips are passed over and the first failure ends the
      iteration with its exception. */
  function Documents(fetched: seq<Fetched>): (r: (seq<Record>, Option<Error>))
    ensures |r.0| <= |fetched|
    ensures r.1.None? <==> forall i :: 0 <= i < |fetched| ==> !fetched[i].Failed?
    ensures r.1.Some? ==>
      exists i :: 0 <= i < |fetched| && fetched[i].Failed? && r.1.value == fetched[i].error &&
        forall j :: 0 <= j < i ==> !fetched[j].Failed?
    decreases |fetched|
  {
    if fetched == [] then ([], None)
    else if fetched[0].Failed? then ([], Some(fetched[0].error))
    else
      var (rest, failure) := Documents(fetched[1..]);
      ((if fetched[0].Emitted? then [fetched[0].record] else []) + rest, failure)
  }

  /** Without a failure the documents are all the records and the run ends
      normally. */
  lemma {:induction false} DocumentsWithoutFailure(fetched: seq<Fetched>)
    requires forall i :: 0 <= i < |fetched| ==> !fetched[i].Failed?
    ensures Documents(fetched) == (Records(fetched), None)
    decreases |fetched|
  {
    if fetched != [] {
      assert forall j :: 1 <= j < |fetched| ==> fetched[1..][j - 1] == fetched[j];
      DocumentsWithoutFailure(fetched[1..]);
    }
  }

  /** With a first failure at `i`, the documents are the records before it and
      its exception ends the run. */
  lemma {:induction false} DocumentsStopAtFailure(fetched: seq<Fetched>, i: nat)
    requires i < |fetched| && fetched[i].Failed?
    requires forall j :: 0 <= j < i ==> !fetched[j].Failed?
    ensures Documents(fetched) == (Records(fetched[..i]), Some(fetched[i].error))
    decreases i
  {
    if i > 0 {
      assert forall j :: 1 <= j < |fetched| ==> fetched[1..][j - 1] == fetched[j];
      DocumentsStopAtFailure(fetched[1..], i - 1);
      assert fetched[..i][1..] == fetched[1..][..i - 1];
    } else {
      assert fetched[..0] == [];
    }
  }
}

=== FILE: normalise.dfy ===
/** The response normalisers of the package loader (anytype_loader/loader.py):
    the listing parser, the spaces-list reader, the property allow-list and
    the object-metadata builder. Each turns a decoded body into a typed result
    and the warnings it issues, or into the exception the code raises. */
module Normalise {
  import opened Json
  import opened Errors

  /** One page of an object listing: the raw ids in server order and the
      continuation flag. */
  datatype Page = Page(ids: seq<Json>, hasMore: bool)

  /* ----- listing parse ----- */

  /** `[obj["id"] for obj in entries]`: the first entry without an id raises. */
  function IdsOf(entries: seq<Json>): (r: Result<seq<Json>>)
    ensures r.Ok? <==> forall i :: 0 <= i < |entries| ==> HasKey(entries[i], "id")
    ensures r.Ok? ==> |r.value| == |entries|
    ensures r.Ok? ==> forall i :: 0 <= i < |entries| ==> r.value[i] == Get(entries[i], "id")
    ensures r.Err? ==> r.error == KeyError("id") || r.error == TypeError
    ensures r.Err? ==>
      exists i :: 0 <= i < |entries| && !HasKey(entries[i], "id") &&
        r == Err(Index(entries[i], "id").error) &&
        forall j :: 0 <= j < i ==> HasKey(entries[j], "id")
    decreases |entries|
  {
    if entries == [] then Ok([])
    else match Index(entries[0], "id")
      case Err(e) => Err(e)
      case Ok(id) =>
        match IdsOf(entries[1..])
        case Err(e) =>
          assert forall j :: 1 <= j < |entries| ==> entries[1..][j - 1] == entries[j];
          Err(e)
        case Ok(rest) =>
          assert forall j :: 1 <= j < |entries| ==> entries[1..][j - 1] == entries[j];
          Ok([id] + rest)
  }

  /** The listing has the documented shape: a dict whose `data` is a list. */
  predicate ListingShaped(data: Json) {
    data.JObj? && Get(data, "data").JArr?
  }

  /** `has_more` counts only when `pagination` is a dict holding a truthy value. */
  predicate HasMore(data: Json) {
    Get(data, "pagination").JObj? && Truthy(Get(Get(data, "pagination"), "has_more"))
  }

  /** Parse a listing body into its page. A body of any other shape is an empty,
      final page plus a warning; an entry without an id raises. */
  function ParseObjectsResponse(data: Json): (r: (Result<Page>, seq<Warning>))
    ensures !ListingShaped(data) ==> r == (Ok(Page([], false)), [UnexpectedListResponse])
    ensures ListingShaped(data) ==> r.1 == []
    ensures r.0.Err? ==> r.0.error == KeyError("id") || r.0.error == TypeError
    ensures ListingShaped(data) ==>
      (r.0.Ok? <==> forall i :: 0 <= i < |Get(data, "data").items| ==> HasKey(Get(data, "data").items[i], "id"))
    ensures ListingShaped(data) && r.0.Ok? ==>
      r.0.value.hasMore == HasMore(data) &&
      |r.0.value.ids| == |Get(data, "data").items| &&
      forall i :: 0 <= i < |r.0.value.ids| ==> r.0.value.ids[i] == Get(Get(data, "data").items[i], "id")
  {
    if ListingShaped(data) then
      match IdsOf(Get(data, "data").items)
      case Ok(ids) => (Ok(Page(ids, HasMore(data))), [])
      case Err(e) => (Err(e), [])
    else (Ok(Page([], false)), [UnexpectedListResponse])
  }

  /** The body a well-behaved server sends for a listing page. */
  function ListingBody(ids: seq<Json>, hasMore: bool): Json {
    JObj([("data", JArr(seq(|ids|, i requires 0 <= i < |ids| => JObj([("id", ids[i])])))),
          ("pagination", JObj([("has_more", JBool(hasMore))]))])
  }

  /** Parsing the listing a server renders gives back its ids, in order, and its flag. */
  lemma ParseListingBody(ids: seq<Json>, hasMore: bool)
    ensures ParseObjectsResponse(ListingBody(ids, hasMore)) == (Ok(Page(ids, hasMore)), [])
  {
    var body := ListingBody(ids, hasMore);
    GetMember(body, 0);
    var entries := Get(body, "data").items;
    assert forall i :: 0 <= i < |entries| ==> Get(entries[i], "id") == ids[i];
    var r := ParseObjectsResponse(body);
    assert r.0.value.ids == ids;
  }

  /* ----- spaces list ----- */

  /** The `data` list of the spaces response, or nothing plus a warning. */
  function ListSpaces(data: Json): (r: (seq<Json>, seq<Warning>))
    ensures Get(data, "data").JArr? ==> r == (Get(data, "data").items, [])
    ensures !Get(data, "data").JArr? ==> r == ([], [UnexpectedSpacesResponse])
  {
    var spaces := Get(data, "data");
    if spaces.JArr? then (spaces.items, []) else ([], [UnexpectedSpacesResponse])
  }

  /* ----- property extraction ----- */

  /** The property keys that reach the metadata. */
  const AllowedKeys: set<string> :=
    {"tag", "description", "last_opened_date", "last_modified_date", "created_date"}

  /** The metadata keys the properties can produce. */
  const OutputKeys: set<string> :=
    {"tags", "description", "created_at", "updated_at", "last_opened_at"}

  /** The text and date properties: every allowed key except `tag`. */
  const ValueKeys: set<string> :=
    {"description", "last_opened_date", "last_modified_date", "created_date"}

  /** The dates are renamed; every other key keeps its name. */
  function Rename(key: string): string {
    if key == "created_date" then "created_at"
    else if key == "last_modified_date" then "updated_at"
    else if key == "last_opened_date" then "last_opened_at"
    else key
  }

  lemma RenameValueKeys()
    ensures forall k :: k in ValueKeys ==> Rename(k) in OutputKeys && Rename(k) != "tags"
    ensures forall k, k' :: k in ValueKeys && k' in ValueKeys && Rename(k) == Rename(k') ==> k == k'
  {
  }

  /** A `multi_select` entry that names a tag: a dict with a truthy name. */
  predicate NamedTag(tag: Json) {
    tag.JObj? && Truthy(Get(tag, "name"))
  }

  /** The names of the named tags, stringified, in order. */
  function TagNames(tags: seq<Json>): (names: seq<string>)
    ensures |names| <= |tags|
    ensures forall i :: 0 <= i < |names| ==> names[i] != ""
    ensures names == [] <==> forall i :: 0 <= i < |tags| ==> !NamedTag(tags[i])
    decreases |tags|
  {
    if tags == [] then []
    else
      var rest := TagNames(tags[1..]);
      assert forall j :: 1 <= j < |tags| ==> tags[1..][j - 1] == tags[j];
      if NamedTag(tags[0]) then
        PyStrEmpty(Get(tags[0], "name"));
        [PyStr(Get(tags[0], "name"))] + rest
      else rest
  }

  /** The names of a concatenation are the names of its halves, in order. */
  lemma {:induction false} TagNamesAppend(a: seq<Json>, b: seq<Json>)
    ensures TagNames(a + b) == TagNames(a) + TagNames(b)
    decreases |a|
  {
    if a != [] {
      var ab := a + b;
      assert ab[0] == a[0] && ab[1..] == a[1..] + b;
      TagNamesAppend(a[1..], b);
    } else {
      assert a + b == b;
    }
  }

  /** One tag contributes its stringified name when it is named, and nothing
      otherwise. Together with `TagNamesAppend` this fixes every list's names. */
  lemma TagNamesOne(tag: Json)
    ensures TagNames([tag]) == if NamedTag(tag) then [PyStr(Get(tag, "name"))] else []
  {
    assert [tag][1..] == [];
  }

  /** The formats whose value is copied; `objects` and the rest are not supported. */
  predicate SupportedFormat(format: Json) {
    format == JStr("date") || format == JStr("text")
  }

  /** The tag property's contribution: the tag names, when there are any. */
  predicate HasTags(prop: Json) {
    Get(prop, "multi_select").JArr? && TagNames(Get(prop, "multi_select").items) != []
  }

  /** What a text or date property with allowed key `k` copies: its value
      under the renamed key, exactly when its format is supported. */
  predicate CopiesValue(c: map<string, Json>, k: string, key: Json, prop: Json) {
    && (Rename(k) in c <==> key == JStr(k) && SupportedFormat(Get(prop, "format")))
    && (Rename(k) in c ==> c[Rename(k)] == Get(prop, Get(prop, "format").s))
  }

  /** What one property with key `key` adds to the extracted dict. */
  function KeyedContribution(key: Json, prop: Json): (c: map<string, Json>)
    ensures c.Keys <= OutputKeys
  {
    if key == JStr("tag") then
      if HasTags(prop) then map["tags" := JArr(JStrs(TagNames(Get(prop, "multi_select").items)))]
      else map[]
    else if key.JStr? && key.s in ValueKeys && SupportedFormat(Get(prop, "format")) then
      map[Rename(key.s) := Get(prop, Get(prop, "format").s)]
    else map[]
  }

  /** A property adds at most one key: the tag names under `tags` for the
      tag property with named tags, or a text or date property's value under
      its renamed key when its format is supported; nothing otherwise. */
  lemma KeyedContributionSpec(key: Json, prop: Json)
    ensures var c := KeyedContribution(key, prop);
      && |c| <= 1
      && ("tags" in c <==> key == JStr("tag") && HasTags(prop))
      && ("tags" in c ==> c["tags"] == JArr(JStrs(TagNames(Get(prop, "multi_select").items))))
      && CopiesValue(c, "description", key, prop)
      && CopiesValue(c, "created_date", key, prop)
      && CopiesValue(c, "last_modified_date", key, prop)
      && CopiesValue(c, "last_opened_date", key, prop)
  {
  }

  /** One property as the package reads it: `prop.get("key")` raises
      AttributeError on a non-dict, and testing an unhashable key against the
      allow-list raises TypeError. */
  function Contribution(prop: Json): (r: Result<map<string, Json>>)
    ensures r.Ok? <==> prop.JObj? && Hashable(Get(prop, "key"))
    ensures r.Ok? ==> r.value == KeyedContribution(Get(prop, "key"), prop)
    ensures r.Err? ==> r.error == (if prop.JObj? then TypeError else AttributeError)
  {
    if !prop.JObj? then Err(AttributeError)
    else
      var key := Get(prop, "key");
      if !Hashable(key) then Err(TypeError) else Ok(KeyedContribution(key, prop))
  }

  /** Fold the contributions of a property list left to right; a later
      contribution overwrites an earlier one with the same output key. */
  function ExtractAll(props: seq<Json>): (r: Result<map<string, Json>>)
    ensures r.Ok? ==> r.value.Keys <= OutputKeys
    ensures r.Err? ==> r.error == TypeError || r.error == AttributeError
    decreases |props|
  {
    if props == [] then Ok(map[])
    else
      match ExtractAll(props[..|props| - 1])
      case Err(e) => Err(e)
      case Ok(acc) =>
        match Contribution(props[|props| - 1])
        case Err(e) => Err(e)
        case Ok(c) => Ok(acc + c)
  }

  /** Extraction raises exactly when some property does, and then with the
      error of the first such property. */
  lemma {:induction false} ExtractRaises(props: seq<Json>)
    ensures ExtractAll(props).Ok? <==> forall i :: 0 <= i < |props| ==> Contribution(props[i]).Ok?
    ensures ExtractAll(props).Err? ==>
      exists i :: 0 <= i < |props| && Contribution(props[i]).Err? &&
        ExtractAll(props).error == Contribution(props[i]).error &&
        forall j :: 0 <= j < i ==> Contribution(props[j]).Ok?
    decreases |props|
  {
    if props != [] {
      var init := props[..|props| - 1];
      assert forall j :: 0 <= j < |init| ==> init[j] == props[j];
      ExtractRaises(init);
    }
  }

  /** `_extract_properties`: anything but a list yields an empty dict. */
  function ExtractProperties(properties: Json): (r: Result<map<string, Json>>)
    ensures !properties.JArr? ==> r == Ok(map[])
    ensures r.Ok? ==> r.value.Keys <= OutputKeys
    ensures properties.JArr? ==> r == ExtractAll(properties.items)
  {
    if properties.JArr? then ExtractAll(properties.items) else Ok(map[])
  }

  lemma MergeAssociative<K, V>(x: map<K, V>, y: map<K, V>, z: map<K, V>)
    ensures x + (y + z) == (x + y) + z
  {
  }

  lemma MergeSingleton<K, V>(m: map<K, V>, k: K, v: V)
    ensures m + map[k := v] == m[k := v]
    ensures map[] + map[k := v] == map[k := v]
    ensures m + map[] == m
  {
  }

  /** One more property at the end of the list: the fold's step. */
  lemma ExtractSnoc(props: seq<Json>, prop: Json)
    requires ExtractAll(props).Ok? && Contribution(prop).Ok?
    ensures ExtractAll(props + [prop]) == Ok(ExtractAll(props).value + Contribution(prop).value)
  {
    var all := props + [prop];
    assert all[..|all| - 1] == props;
  }

  /** Extraction distributes over concatenation, right-biased: the properties
      of a later slice overwrite those of an earlier one. */
  lemma {:induction false} ExtractAppend(a: seq<Json>, b: seq<Json>)
    requires ExtractAll(a).Ok? && ExtractAll(b).Ok?
    ensures ExtractAll(a + b) == Ok(ExtractAll(a).value + ExtractAll(b).value)
    decreases |b|
  {
    if b == [] {
      assert a + b == a;
      assert ExtractAll(a).value + map[] == ExtractAll(a).value;
    } else {
      var b', x := b[..|b| - 1], b[|b| - 1];
      assert b == b' + [x];
      ExtractRaises(b);
      ExtractRaises(b');
      assert forall j :: 0 <= j < |b'| ==> b'[j] == b[j];
      ExtractAppend(a, b');
      ExtractSnoc(b', x);
      assert a + b == (a + b') + [x];
      ExtractSnoc(a + b', x);
      MergeAssociative(ExtractAll(a).value, ExtractAll(b').value, Contribution(x).value);
    }
  }

  /** The property sets output key `out`. */
  predicate Sets(prop: Json, out: string) {
    Contribution(prop).Ok? && out in Contribution(prop).value
  }

  /** Reading a fold of maps: `m` holds key `out` exactly when some map in
      `cs` does, with the value of the last such map. */
  predicate LastWins<V(==)>(cs: seq<map<string, V>>, out: string, m: map<string, V>) {
    && (out in m <==> exists i :: 0 <= i < |cs| && out in cs[i])
    && (out in m ==>
          exists i :: 0 <= i < |cs| && out in cs[i] && m[out] == cs[i][out] &&
            forall j :: i < j < |cs| ==> out !in cs[j])
  }

  /** Merging one more map on the right keeps the last-wins reading. */
  lemma LastWinsStep<V>(cs: seq<map<string, V>>, c: map<string, V>, out: string, acc: map<string, V>)
    requires LastWins(cs, out, acc)
    ensures LastWins(cs + [c], out, acc + c)
  {
    var all := cs + [c];
    assert forall j :: 0 <= j < |cs| ==> all[j] == cs[j];
    if out !in c {
      assert (exists i :: 0 <= i < |all| && out in all[i]) <==>
             (exists i :: 0 <= i < |cs| && out in cs[i]);
      if out in acc {
        var i :| 0 <= i < |cs| && out in cs[i] && acc[out] == cs[i][out] &&
          forall j :: i < j < |cs| ==> out !in cs[j];
        assert out in all[i];
      }
    } else {
      assert out in all[|cs|];
    }
  }

  /** The contributions of a property list, an empty map standing for a
      property that raises. */
  function Contributions(props: seq<Json>): (cs: seq<map<string, Json>>)
    ensures |cs| == |props|
    ensures forall i :: 0 <= i < |props| && Contribution(props[i]).Ok? ==> cs[i] == Contribution(props[i]).value
  {
    seq(|props|, i requires 0 <= i < |props| =>
      if Contribution(props[i]).Ok? then Contribution(props[i]).value else map[])
  }

  lemma ContributionsSnoc(props: seq<Json>)
    requires props != [] && Contribution(props[|props| - 1]).Ok?
    ensures Contributions(props) ==
      Contributions(props[..|props| - 1]) + [Contribution(props[|props| - 1]).value]
  {
    var init := props[..|props| - 1];
    assert forall j :: 0 <= j < |init| ==> init[j] == props[j];
  }

  /** The fold's result is the last-wins reading of its contributions. */
  lemma {:induction false} ExtractFold(props: seq<Json>, out: string)
    requires ExtractAll(props).Ok?
    ensures LastWins(Contributions(props), out, ExtractAll(props).value)
    decreases |props|
  {
    if props != [] {
      var init, x := props[..|props| - 1], props[|props| - 1];
      ExtractRaises(props);
      ExtractRaises(init);
      assert forall j :: 0 <= j < |init| ==> init[j] == props[j];
      ExtractFold(init, out);
      LastWinsStep(Contributions(init), Contribution(x).value, out, ExtractAll(init).value);
      ContributionsSnoc(props);
    }
  }

  /** Which output key a property list sets, and to what: an output key is set
      exactly when some property sets it, and it holds the value of the last
      such property. */
  lemma {:induction false} ExtractLastWins(props: seq<Json>, out: string)
    requires ExtractAll(props).Ok?
    ensures out in ExtractAll(props).value <==> exists i :: 0 <= i < |props| && Sets(props[i], out)
    ensures out in ExtractAll(props).value ==>
      exists i :: 0 <= i < |props| && Sets(props[i], out) &&
        ExtractAll(props).value[out] == Contribution(props[i]).value[out] &&
        forall j :: i < j < |props| ==> !Sets(props[j], out)
  {
    ExtractRaises(props);
    ExtractFold(props, out);
    var cs := Contributions(props);
    assert forall i :: 0 <= i < |props| ==> (Sets(props[i], out) <==> out in cs[i]);
  }

  /** The tag property of the package's unit test contributes both names. */
  lemma TagExample(p0: Json)
    requires p0 == JObj([("key", JStr("tag")),
                         ("multi_select", JArr([JObj([("name", JStr("alpha"))]), JObj([("name", JStr("beta"))])]))])
    ensures Contribution(p0) == Ok(map["tags" := JArr([JStr("alpha"), JStr("beta")])])
  {
    var tags := [JObj([("name", JStr("alpha"))]), JObj([("name", JStr("beta"))])];
    GetMember(tags[0], 0);
    GetMember(tags[1], 0);
    assert TagNames(tags[1..]) == ["beta"];
    assert TagNames(tags) == ["alpha", "beta"];
    GetMember(p0, 0);
    GetMember(p0, 1);
    assert HasTags(p0);
    assert JStrs(["alpha", "beta"]) == [JStr("alpha"), JStr("beta")];
  }

  /** A property with a string key outside the allow-list is dropped without error. */
  lemma IgnoredKey(prop: Json)
    requires prop.JObj? && Get(prop, "key").JStr? && Get(prop, "key").s !in AllowedKeys
    ensures Contribution(prop) == Ok(map[])
  {
  }

  lemma IgnoredExample(p5: Json)
    requires p5 == JObj([("key", JStr("ignored")), ("format", JStr("objects")), ("objects", JArr([]))])
    ensures Contribution(p5) == Ok(map[])
  {
    GetMember(p5, 0);
    IgnoredKey(p5);
  }

  lemma TakeAll<T>(s: seq<T>)
    ensures s[..|s|] == s
  {
  }

  /** The fold's step, stated for a prefix of a list. */
  lemma ExtractPrefixStep(props: seq<Json>, k: nat, acc: map<string, Json>, c: map<string, Json>)
    requires k < |props|
    requires ExtractAll(props[..k]) == Ok(acc) && Contribution(props[k]) == Ok(c)
    ensures ExtractAll(props[..k + 1]) == Ok(acc + c)
  {
    assert props[..k + 1] == props[..k] + [props[k]];
    ExtractSnoc(props[..k], props[k]);
  }

  /** The fold's step over a text or date property. */
  lemma ExtractDatedStep(ps: seq<Json>, k: nat, acc: map<string, Json>, key: string, format: string, value: string, out: string)
    requires k < |ps| && ExtractAll(ps[..k]) == Ok(acc)
    requires key in ValueKeys && (format == "date" || format == "text") && Rename(key) == out
    requires ps[k] == DatedProperty(key, format, value)
    ensures ExtractAll(ps[..k + 1]) == Ok(acc[out := JStr(value)])
  {
    DatedContribution(key, format, value, out);
    ExtractPrefixStep(ps, k, acc, map[out := JStr(value)]);
    MergeSingleton(acc, out, JStr(value));
  }

  /** The property list of the package's unit test comes out as the test
      expects: tag names collected, dates renamed, the unknown key dropped. */
  lemma ExtractExample(ps: seq<Json>, created: string, updated: string, lastOpened: string, description: string)
    requires |ps| == 6
    requires ps[0] == JObj([("key", JStr("tag")),
                            ("multi_select", JArr([JObj([("name", JStr("alpha"))]), JObj([("name", JStr("beta"))])]))])
    requires ps[1] == DatedProperty("created_date", "date", created)
    requires ps[2] == DatedProperty("last_modified_date", "date", updated)
    requires ps[3] == DatedProperty("last_opened_date", "date", lastOpened)
    requires ps[4] == DatedProperty("description", "text", description)
    requires ps[5] == JObj([("key", JStr("ignored")), ("format", JStr("objects")), ("objects", JArr([]))])
    ensures ExtractProperties(JArr(ps)) == Ok(map[
      "tags" := JArr([JStr("alpha"), JStr("beta")]),
      "created_at" := JStr(created),
      "updated_at" := JStr(updated),
      "last_opened_at" := JStr(lastOpened),
      "description" := JStr(description)])
  {
    var tags := JArr([JStr("alpha"), JStr("beta")]);
    var m0 := map["tags" := tags];
    assert ExtractAll(ps[..1]) == Ok(m0) by {
      TagExample(ps[0]);
      assert ExtractAll(ps[..0]) == Ok(map[]);
      ExtractPrefixStep(ps, 0, map[], m0);
      MergeSingleton(map[], "tags", tags);
    }
    ExtractDatedStep(ps, 1, m0, "created_date", "date", created, "created_at");
    var m1 := m0["created_at" := JStr(created)];
    ExtractDatedStep(ps, 2, m1, "last_modified_date", "date", updated, "updated_at");
    var m2 := m1["updated_at" := JStr(updated)];
    ExtractDatedStep(ps, 3, m2, "last_opened_date", "date", lastOpened, "last_opened_at");
    var m3 := m2["last_opened_at" := JStr(lastOpened)];
    ExtractDatedStep(ps, 4, m3, "description", "text", description, "description");
    var m4 := m3["description" := JStr(description)];
    assert ExtractAll(ps) == Ok(m4) by {
      IgnoredExample(ps[5]);
      ExtractPrefixStep(ps, 5, m4, map[]);
      MergeSingleton(m4, "description", JStr(description));
      TakeAll(ps);
    }
  }

  /** A text or date property as the API sends it: its key, its format, and
      its value under the format's name. */
  function DatedProperty(key: string, format: string, value: string): (p: Json)
    requires key in ValueKeys && (format == "date" || format == "text")
    ensures Contribution(p) == Ok(map[Rename(key) := JStr(value)])
  {
    var p := JObj([("key", JStr(key)), ("format", JStr(format)), (format, JStr(value))]);
    assert format != "format" && format != "key";
    assert Get(p, format) == JStr(value);
    var front := [("key", JStr(key)), ("format", JStr(format))];
    assert p.members[..2] == front;
    assert Lookup(p.members, "format") == Lookup(front, "format") == Some(JStr(format));
    assert Lookup(p.members, "key") == Lookup(front, "key");
    assert front[..1] == [("key", JStr(key))];
    assert Lookup(front, "key") == Lookup([("key", JStr(key))], "key") == Some(JStr(key));
    p
  }

  /** A dated property's contribution, with its output key named. */
  lemma DatedContribution(key: string, format: string, value: string, out: string)
    requires key in ValueKeys && (format == "date" || format == "text")
    requires Rename(key) == out
    ensures Contribution(DatedProperty(key, format, value)) == Ok(map[out := JStr(value)])
  {
  }

  /* ----- object normalisation ----- */

  /** A normalised object: its text content and its metadata. */
  datatype Record = Record(content: string, metadata: map<string, Json>)

  /** The per-object result: a record, a skip, or the exception the fetch raises. */
  datatype Fetched = Emitted(record: Record) | Skipped | Failed(error: Error)

  /** The metadata keys every record carries. */
  const BaseKeys: set<string> :=
    {"space_id", "space_name", "object_id", "id", "name", "archived", "type"}

  lemma BaseAndOutputDisjoint()
    ensures BaseKeys !! OutputKeys
  {
  }

  /** The object's type name, when its `type` is a dict with a non-None name. */
  function TypeName(obj: Json): Json {
    if Get(obj, "type").JObj? then Get(Get(obj, "type"), "name") else JNull
  }

  /** `space_name_map.get(space_id)`. */
  function SpaceName(spaceNames: map<Json, string>, spaceId: Json): Json {
    if spaceId in spaceNames then JStr(spaceNames[spaceId]) else JNull
  }

  /** The seven base keys: `type` falls back to "unknown" when missing and
      `name` to "untitled" whenever it is falsy. */
  function BaseMetadata(spaceId: Json, spaceNames: map<Json, string>, objectId: string, obj: Json): (m: map<string, Json>)
    ensures m.Keys == BaseKeys
    ensures m["id"] == m["object_id"] == JStr(objectId)
    ensures m["space_id"] == spaceId
    ensures m["space_name"] != JNull <==> spaceId in spaceNames
    ensures spaceId in spaceNames ==> m["space_name"] == JStr(spaceNames[spaceId])
    ensures Truthy(m["name"])
    ensures Truthy(Get(obj, "name")) ==> m["name"] == Get(obj, "name")
    ensures !Truthy(Get(obj, "name")) ==> m["name"] == JStr("untitled")
    ensures m["archived"].JBool? && (m["archived"].b <==> Truthy(Get(obj, "archived")))
    ensures m["type"] != JNull
    ensures TypeName(obj) != JNull ==> m["type"] == TypeName(obj)
    ensures TypeName(obj) == JNull ==> m["type"] == JStr("unknown")
  {
    map[
      "space_id" := spaceId,
      "space_name" := SpaceName(spaceNames, spaceId),
      "object_id" := JStr(objectId),
      "id" := JStr(objectId),
      "name" := if Truthy(Get(obj, "name")) then Get(obj, "name") else JStr("untitled"),
      "archived" := JBool(Truthy(Get(obj, "archived"))),
      "type" := if TypeName(obj) == JNull then JStr("unknown") else TypeName(obj)]
  }

  /** The warnings for the sentinels substituted: type first, then name
      (the name warning only when it is missing, not merely falsy). */
  function SentinelWarnings(objectId: string, obj: Json): (ws: seq<Warning>)
    ensures |ws| == (if TypeName(obj) == JNull then 1 else 0) + (if Get(obj, "name") == JNull then 1 else 0)
    ensures MissingType(objectId) in ws <==> TypeName(obj) == JNull
    ensures MissingName(objectId) in ws <==> Get(obj, "name") == JNull
    ensures forall i :: 0 <= i < |ws| ==> ws[i] == MissingType(objectId) || ws[i] == MissingName(objectId)
    ensures |ws| == 2 ==> ws[0] == MissingType(objectId)
  {
    (if TypeName(obj) == JNull then [MissingType(objectId)] else []) +
    (if Get(obj, "name") == JNull then [MissingName(objectId)] else [])
  }

  /** The normalisation part of `_fetch_object`, given the decoded body.
      A body without an `object` dict raises; an object without markdown is
      skipped with a warning; otherwise the record carries the markdown and
      the base metadata with the extracted properties merged over it. */
  function NormaliseObject(spaceId: Json, spaceNames: map<Json, string>, objectId: string, data: Json): (r: (Fetched, seq<Warning>))
    ensures !Get(data, "object").JObj? ==> r == (Failed(APIError(MalformedObject(objectId))), [])
    ensures r.0.Failed? ==> r.0.error.IsAPIError() || r.0.error.TypeError? || r.0.error.AttributeError?
    ensures Get(data, "object").JObj? && Get(Get(data, "object"), "markdown") == JNull ==>
      r == (Skipped, [NoMarkdown(objectId)])
    ensures r.0.Skipped? ==> r.1 == [NoMarkdown(objectId)]
    ensures r.0.Emitted? ==>
      var obj := Get(data, "object");
      var extracted := ExtractProperties(Get(obj, "properties"));
      && extracted.Ok?
      && r.0.record.content == PyStr(Get(obj, "markdown"))
      && r.0.record.metadata.Keys == BaseKeys + extracted.value.Keys
      && (forall k :: k in BaseKeys ==> r.0.record.metadata[k] == BaseMetadata(spaceId, spaceNames, objectId, obj)[k])
      && (forall k :: k in extracted.value ==> r.0.record.metadata[k] == extracted.value[k])
      && r.1 == SentinelWarnings(objectId, obj)
    ensures Get(data, "object").JObj? && Get(Get(data, "object"), "markdown") != JNull ==>
      (r.0.Emitted? <==> ExtractProperties(Get(Get(data, "object"), "properties")).Ok?)
    ensures (Get(data, "object").JObj? && Get(Get(data, "object"), "markdown") != JNull &&
             ExtractProperties(Get(Get(data, "object"), "properties")).Err?) ==>
      r == (Failed(ExtractProperties(Get(Get(data, "object"), "properties")).error),
            SentinelWarnings(objectId, Get(data, "object")))
  {
    var obj := Get(data, "object");
    if !obj.JObj? then (Failed(APIError(MalformedObject(objectId))), [])
    else
      var markdown := Get(obj, "markdown");
      if markdown == JNull then (Skipped, [NoMarkdown(objectId)])
      else
        var warnings := SentinelWarnings(objectId, obj);
        var base := BaseMetadata(spaceId, spaceNames, objectId, obj);
        match ExtractProperties(Get(obj, "properties"))
        case Err(e) =>
          ExtractRaises(Get(obj, "properties").items);
          (Failed(e), warnings)
        case Ok(extracted) =>
          BaseAndOutputDisjoint();
          (Emitted(Record(PyStr(markdown), base + extracted)), warnings)
  }
}

=== FILE: pagination.dfy ===
/** The offset-pagination driver `_iter_object_ids`, shared by both loaders.
    The listing endpoint is a finite script: `answers[k]` is what the k-th
    listing call returned, a page or the exception it raised. The driver
    yields each page's ids, advances the offset by the number of ids the page
    actually held, and stops right after the first page without `has_more`. */
module Pagination {
  import opened Json
  import opened Errors
  import opened Normalise

  /** One listing call: the space, the page size asked for and the offset. */
  datatype Call = Call(spaceId: Json, limit: int, offset: nat)

  /** How the run ended: a final page, an exception from a listing call, or
      the script running out while the server still promised more. */
  datatype End = Finished | Raised(error: Error) | ScriptEnded

  /** What the generator produced: the ids it yielded, the calls it made, the
      warnings it issued and how it ended. */
  datatype Listing = Listing(ids: seq<string>, calls: seq<Call>, warnings: seq<Warning>, end: End)

  /** The answer asks for another call: a page with `has_more` set. */
  predicate Continues(answer: Result<Page>) {
    answer.Ok? && answer.value.hasMore
  }

  /** The ids an answer carries: none when the call raised. */
  function PageIds(answer: Result<Page>): seq<Json> {
    if answer.Ok? then answer.value.ids else []
  }

  /** All ids of a run of answers, in order. */
  function AllIds(answers: seq<Result<Page>>): seq<Json>
    decreases |answers|
  {
    if answers == [] then [] else PageIds(answers[0]) + AllIds(answers[1..])
  }

  /** An empty page: the answer that triggers the package's warning at offset 0. */
  predicate EmptyPage(answer: Result<Page>) {
    answer.Ok? && answer.value.ids == []
  }

  /** The number of empty pages at the head of a run of answers. */
  function LeadingEmpty(answers: seq<Result<Page>>): nat
    decreases |answers|
  {
    if answers == [] || !EmptyPage(answers[0]) then 0 else 1 + LeadingEmpty(answers[1..])
  }

  /** `count` copies of the "no objects" warning for a space. */
  function NoObjectsWarnings(spaceId: Json, count: nat): (ws: seq<Warning>)
    ensures |ws| == count
    ensures forall i :: 0 <= i < count ==> ws[i] == NoObjects(spaceId)
  {
    seq(count, _ => NoObjects(spaceId))
  }

  lemma NoObjectsCons(spaceId: Json, count: nat)
    ensures NoObjectsWarnings(spaceId, count + 1) == [NoObjects(spaceId)] + NoObjectsWarnings(spaceId, count)
  {
  }

  /** The first k answers of a non-empty script, split at its head. */
  lemma PrefixAtHead(answers: seq<Result<Page>>, k: nat)
    requires 1 <= k <= |answers|
    ensures AllIds(answers[..k]) == PageIds(answers[0]) + AllIds(answers[1..][..k - 1])
    ensures LeadingEmpty(answers[..k]) ==
      (if EmptyPage(answers[0]) then 1 + LeadingEmpty(answers[1..][..k - 1]) else 0)
  {
    assert answers[..k][1..] == answers[1..][..k - 1];
  }

  /** The driver, entered at offset `offset` with the calls still to come.
      `warnEmpty` says whether this loader warns about an empty page at
      offset 0 (the package does, the older loader does not). */
  function Paginate(spaceId: Json, limit: int, warnEmpty: bool, answers: seq<Result<Page>>, offset: nat): (l: Listing)
    ensures |l.calls| <= |answers|
    ensures |l.calls| == 0 <==> answers == []
    decreases |answers|
  {
    if answers == [] then Listing([], [], [], ScriptEnded)
    else
      var call := Call(spaceId, limit, offset);
      match answers[0]
      case Err(e) => Listing([], [call], [], Raised(e))
      case Ok(page) =>
        var warned := if warnEmpty && offset == 0 && page.ids == [] then [NoObjects(spaceId)] else [];
        if !page.hasMore then Listing(Strs(page.ids), [call], warned, Finished)
        else
          var rest := Paginate(spaceId, limit, warnEmpty, answers[1..], offset + |page.ids|);
          Listing(Strs(page.ids) + rest.ids, [call] + rest.calls, warned + rest.warnings, rest.end)
  }

  /** One step of the driver on a page that asks for more: the page's ids,
      its call and its warning go before the rest of the run. */
  lemma PaginateContinues(spaceId: Json, limit: int, warnEmpty: bool, answers: seq<Result<Page>>, offset: nat)
    requires answers != [] && Continues(answers[0])
    ensures var page := answers[0].value;
      var rest := Paginate(spaceId, limit, warnEmpty, answers[1..], offset + |page.ids|);
      var l := Paginate(spaceId, limit, warnEmpty, answers, offset);
      && l.ids == Strs(page.ids) + rest.ids
      && l.calls == [Call(spaceId, limit, offset)] + rest.calls
      && l.warnings == (if warnEmpty && offset == 0 && page.ids == [] then [NoObjects(spaceId)] else []) + rest.warnings
      && l.end == rest.end
  {
  }

  /** The driver's last step: a raise, or a page without `has_more`. */
  lemma PaginateHalts(spaceId: Json, limit: int, warnEmpty: bool, answers: seq<Result<Page>>, offset: nat)
    requires answers != [] && !Continues(answers[0])
    ensures var l := Paginate(spaceId, limit, warnEmpty, answers, offset);
      && l.calls == [Call(spaceId, limit, offset)]
      && (answers[0].Err? ==> l.ids == [] && l.warnings == [] && l.end == Raised(answers[0].error))
      && (answers[0].Ok? ==>
            && l.ids == Strs(answers[0].value.ids)
            && l.warnings == (if warnEmpty && offset == 0 && answers[0].value.ids == [] then [NoObjects(spaceId)] else [])
            && l.end == Finished)
  {
  }

  /** A run of `n` calls ending with `end` is consistent with the script. */
  predicate StopsAt(answers: seq<Result<Page>>, n: nat, end: End) {
    && n <= |answers|
    && (forall k :: 0 <= k < n - 1 ==> Continues(answers[k]))
    && (end.Finished? <==> n > 0 && answers[n - 1].Ok? && !answers[n - 1].value.hasMore)
    && (end.Raised? <==> n > 0 && answers[n - 1].Err?)
    && (end.Raised? ==> end.error == answers[n - 1].error)
    && (end.ScriptEnded? <==> n == |answers| && forall k :: 0 <= k < |answers| ==> Continues(answers[k]))
  }

  /** A continuing head answer extends a consistent run by one call. */
  lemma StopsStep(answers: seq<Result<Page>>, n: nat, end: End)
    requires answers != [] && Continues(answers[0])
    requires StopsAt(answers[1..], n, end)
    ensures StopsAt(answers, n + 1, end)
  {
    assert forall k :: 1 <= k < |answers| ==> answers[1..][k - 1] == answers[k];
  }

  /** The head answer stops the driver: one call, ending as that answer says. */
  lemma StopsHalt(answers: seq<Result<Page>>, end: End)
    requires answers != [] && !Continues(answers[0])
    requires end == if answers[0].Err? then Raised(answers[0].error) else Finished
    ensures StopsAt(answers, 1, end)
  {
  }

  /** Where the driver stops: every call but the last asked for more, and the
      last one either ended the listing, raised, or was the script's last. */
  lemma {:induction false} PaginateStops(spaceId: Json, limit: int, warnEmpty: bool, answers: seq<Result<Page>>, offset: nat)
    ensures var l := Paginate(spaceId, limit, warnEmpty, answers, offset);
      StopsAt(answers, |l.calls|, l.end)
    decreases |answers|
  {
    var l := Paginate(spaceId, limit, warnEmpty, answers, offset);
    if answers != [] {
      if Continues(answers[0]) {
        var page := answers[0].value;
        var rest := Paginate(spaceId, limit, warnEmpty, answers[1..], offset + |page.ids|);
        PaginateStops(spaceId, limit, warnEmpty, answers[1..], offset + |page.ids|);
        PaginateContinues(spaceId, limit, warnEmpty, answers, offset);
        StopsStep(answers, |rest.calls|, rest.end);
      } else {
        PaginateHalts(spaceId, limit, warnEmpty, answers, offset);
        StopsHalt(answers, l.end);
      }
    }
  }

  /** The calls of a run from `offset` ask for the running totals. */
  predicate OffsetsFrom(spaceId: Json, limit: int, answers: seq<Result<Page>>, offset: nat, calls: seq<Call>)
    requires |calls| <= |answers|
  {
    forall k :: 0 <= k < |calls| ==> calls[k] == Call(spaceId, limit, offset + |AllIds(answers[..k])|)
  }

  /** The k-th call asks for the offset reached by the ids of the calls before
      it: the actual page lengths, not the page size. */
  lemma {:induction false} PaginateOffsets(spaceId: Json, limit: int, warnEmpty: bool, answers: seq<Result<Page>>, offset: nat)
    ensures OffsetsFrom(spaceId, limit, answers, offset, Paginate(spaceId, limit, warnEmpty, answers, offset).calls)
    decreases |answers|
  {
    var l := Paginate(spaceId, limit, warnEmpty, answers, offset);
    if answers != [] && Continues(answers[0]) {
      var page := answers[0].value;
      var rest := Paginate(spaceId, limit, warnEmpty, answers[1..], offset + |page.ids|);
      PaginateOffsets(spaceId, limit, warnEmpty, answers[1..], offset + |page.ids|);
      PaginateContinues(spaceId, limit, warnEmpty, answers, offset);
      OffsetsStep(spaceId, limit, answers, offset, rest.calls, l.calls);
    } else if answers != [] {
      PaginateHalts(spaceId, limit, warnEmpty, answers, offset);
      OffsetsHalt(spaceId, limit, answers, offset, l.calls);
    }
  }

  /** A single call asks for the offset the run was entered with. */
  lemma OffsetsHalt(spaceId: Json, limit: int, answers: seq<Result<Page>>, offset: nat, calls: seq<Call>)
    requires answers != [] && calls == [Call(spaceId, limit, offset)]
    ensures OffsetsFrom(spaceId, limit, answers, offset, calls)
  {
    assert answers[..0] == [];
  }

  /** Prepending the head call keeps the offsets at the running totals. */
  lemma OffsetsStep(spaceId: Json, limit: int, answers: seq<Result<Page>>, offset: nat,
                    restCalls: seq<Call>, calls: seq<Call>)
    requires answers != [] && answers[0].Ok?
    requires calls == [Call(spaceId, limit, offset)] + restCalls
    requires |restCalls| <= |answers| - 1
    requires OffsetsFrom(spaceId, limit, answers[1..], offset + |answers[0].value.ids|, restCalls)
    ensures OffsetsFrom(spaceId, limit, answers, offset, calls)
  {
    assert answers[..0] == [];
    forall k | 1 <= k < |calls|
      ensures calls[k] == Call(spaceId, limit, offset + |AllIds(answers[..k])|)
    {
      PrefixAtHead(answers, k);
      assert calls[k] == restCalls[k - 1];
    }
  }

  /** A page's ids before the rest's are the ids of one more answer. */
  lemma YieldsStep(answers: seq<Result<Page>>, l: Listing, rest: Listing)
    requires answers != [] && |rest.calls| <= |answers| - 1
    requires rest.ids == Strs(AllIds(answers[1..][..|rest.calls|]))
    requires l.ids == Strs(PageIds(answers[0])) + rest.ids
    requires |l.calls| == |rest.calls| + 1
    ensures l.ids == Strs(AllIds(answers[..|l.calls|]))
  {
    PrefixAtHead(answers, |rest.calls| + 1);
    StrsAppend(PageIds(answers[0]), AllIds(answers[1..][..|rest.calls|]));
  }

  /** The ids yielded are those of the pages fetched, in order, stringified. */
  lemma {:induction false} PaginateYields(spaceId: Json, limit: int, warnEmpty: bool, answers: seq<Result<Page>>, offset: nat)
    ensures var l := Paginate(spaceId, limit, warnEmpty, answers, offset);
      l.ids == Strs(AllIds(answers[..|l.calls|]))
    decreases |answers|
  {
    var l := Paginate(spaceId, limit, warnEmpty, answers, offset);
    if answers != [] {
      if Continues(answers[0]) {
        var page := answers[0].value;
        var rest := Paginate(spaceId, limit, warnEmpty, answers[1..], offset + |page.ids|);
        PaginateYields(spaceId, limit, warnEmpty, answers[1..], offset + |page.ids|);
        PaginateContinues(spaceId, limit, warnEmpty, answers, offset);
        YieldsStep(answers, l, rest);
      } else {
        PaginateHalts(spaceId, limit, warnEmpty, answers, offset);
        assert answers[1..][..0] == [];
        YieldsStep(answers, l, Listing([], [], [], Finished));
      }
    } else {
      assert answers[..0] == [];
    }
  }

  /** The warnings a run from `offset` issues: from offset 0, a warning
      loader warns once for each empty page before the first id; from any
      other offset, or when not warning, never. */
  predicate WarnsFor(spaceId: Json, warnEmpty: bool, answers: seq<Result<Page>>, offset: nat, l: Listing)
    requires |l.calls| <= |answers|
  {
    && (warnEmpty && offset == 0 ==>
          l.warnings == NoObjectsWarnings(spaceId, LeadingEmpty(answers[..|l.calls|])))
    && (!(warnEmpty && offset == 0) ==> l.warnings == [])
  }

  /** The head page's warning before the rest's warnings are the warnings
      of one more answer. */
  lemma WarningsStep(spaceId: Json, warnEmpty: bool, answers: seq<Result<Page>>, offset: nat, l: Listing, rest: Listing)
    requires answers != [] && answers[0].Ok?
    requires |l.calls| == |rest.calls| + 1 && |rest.calls| <= |answers| - 1
    requires WarnsFor(spaceId, warnEmpty, answers[1..], offset + |answers[0].value.ids|, rest)
    requires l.warnings ==
      (if warnEmpty && offset == 0 && answers[0].value.ids == [] then [NoObjects(spaceId)] else []) + rest.warnings
    ensures WarnsFor(spaceId, warnEmpty, answers, offset, l)
  {
    PrefixAtHead(answers, |l.calls|);
    if warnEmpty && offset == 0 && answers[0].value.ids == [] {
      NoObjectsCons(spaceId, LeadingEmpty(answers[1..][..|rest.calls|]));
    }
  }

  /** From offset 0, a warning loader warns once for each empty page before
      the first id arrives; from any other offset, or when not warning, never. */
  lemma {:induction false} PaginateWarnings(spaceId: Json, limit: int, warnEmpty: bool, answers: seq<Result<Page>>, offset: nat)
    ensures var l := Paginate(spaceId, limit, warnEmpty, answers, offset);
      && (warnEmpty && offset == 0 ==>
            l.warnings == NoObjectsWarnings(spaceId, LeadingEmpty(answers[..|l.calls|])))
      && (!(warnEmpty && offset == 0) ==> l.warnings == [])
    decreases |answers|
  {
    var l := Paginate(spaceId, limit, warnEmpty, answers, offset);
    if answers != [] {
      if Continues(answers[0]) {
        var page := answers[0].value;
        var rest := Paginate(spaceId, limit, warnEmpty, answers[1..], offset + |page.ids|);
        PaginateWarnings(spaceId, limit, warnEmpty, answers[1..], offset + |page.ids|);
        PaginateContinues(spaceId, limit, warnEmpty, answers, offset);
        WarningsStep(spaceId, warnEmpty, answers, offset, l, rest);
      } else if answers[0].Ok? {
        PaginateHalts(spaceId, limit, warnEmpty, answers, offset);
        assert answers[1..][..0] == [];
        WarningsStep(spaceId, warnEmpty, answers, offset, l, Listing([], [], [], Finished));
      } else {
        PaginateHalts(spaceId, limit, warnEmpty, answers, offset);
        assert !EmptyPage(answers[0]);
        PrefixAtHead(answers, 1);
      }
    }
  }

  /** The package's `_iter_object_ids`: from offset 0, warning about empty
      pages. Calls are made at the running total of ids received, the ids come
      out in page order, and one warning is issued per empty page received
      before the first id. */
  function IterObjectIds(spaceId: Json, pageSize: int, answers: seq<Result<Page>>): (l: Listing)
    ensures |l.calls| <= |answers|
    ensures forall k :: 0 <= k < |l.calls| ==> l.calls[k] == Call(spaceId, pageSize, |AllIds(answers[..k])|)
    ensures forall k :: 0 <= k < |l.calls| - 1 ==> Continues(answers[k])
    ensures l.end.Finished? <==>
      |l.calls| > 0 && answers[|l.calls| - 1].Ok? && !answers[|l.calls| - 1].value.hasMore
    ensures l.end.Raised? <==> |l.calls| > 0 && answers[|l.calls| - 1].Err?
    ensures l.end.Raised? ==> l.end.error == answers[|l.calls| - 1].error
    ensures l.end.ScriptEnded? <==>
      |l.calls| == |answers| && forall k :: 0 <= k < |answers| ==> Continues(answers[k])
    ensures l.ids == Strs(AllIds(answers[..|l.calls|]))
    ensures l.warnings == NoObjectsWarnings(spaceId, LeadingEmpty(answers[..|l.calls|]))
  {
    PaginateStops(spaceId, pageSize, true, answers, 0);
    PaginateOffsets(spaceId, pageSize, true, answers, 0);
    PaginateYields(spaceId, pageSize, true, answers, 0);
    PaginateWarnings(spaceId, pageSize, true, answers, 0);
    Paginate(spaceId, pageSize, true, answers, 0)
  }

  /** Once the driver has stopped, answers after the stop are never consulted:
      extending the script does not change the run. */
  lemma {:induction false} PaginateIgnoresTail(spaceId: Json, limit: int, warnEmpty: bool,
                                               answers: seq<Result<Page>>, more: seq<Result<Page>>, offset: nat)
    requires !Paginate(spaceId, limit, warnEmpty, answers, offset).end.ScriptEnded?
    ensures Paginate(spaceId, limit, warnEmpty, answers + more, offset) ==
      Paginate(spaceId, limit, warnEmpty, answers, offset)
    decreases |answers|
  {
    assert answers != [];
    assert (answers + more)[0] == answers[0];
    assert (answers + more)[1..] == answers[1..] + more;
    if answers[0].Ok? && answers[0].value.hasMore {
      PaginateIgnoresTail(spaceId, limit, warnEmpty, answers[1..], more, offset + |answers[0].value.ids|);
    }
  }

  /** The package's pagination test: two pages of two and one ids; the second
      call starts at offset 2, the length of the first page. */
  lemma FollowsPagination(spaceId: Json, pageSize: int, a: string, b: string, c: string)
    ensures var l := IterObjectIds(spaceId, pageSize,
                                   [Ok(Page([JStr(a), JStr(b)], true)), Ok(Page([JStr(c)], false))]);
      l.ids == [a, b, c] &&
      l.calls == [Call(spaceId, pageSize, 0), Call(spaceId, pageSize, 2)] &&
      l.warnings == [] && l.end == Finished
  {
    var answers := [Ok(Page([JStr(a), JStr(b)], true)), Ok(Page([JStr(c)], false))];
    assert IterObjectIds(spaceId, pageSize, answers) == Paginate(spaceId, pageSize, true, answers, 0);
    var rest := Paginate(spaceId, pageSize, true, answers[1..], 2);
    assert rest == Listing([c], [Call(spaceId, pageSize, 2)], [], Finished);
    assert Strs([JStr(a), JStr(b)]) == [a, b];
  }

  /** An empty first page is a warning, not an error: the warning comes
      first, and a raise can only come from a later call. */
  lemma EmptyFirstPageWarns(spaceId: Json, pageSize: int, answers: seq<Result<Page>>)
    requires |answers| > 0 && EmptyPage(answers[0])
    ensures var l := IterObjectIds(spaceId, pageSize, answers);
      |l.calls| >= 1 && |l.warnings| >= 1 && l.warnings[0] == NoObjects(spaceId) &&
      (l.end.Raised? ==> |l.calls| >= 2)
  {
    assert IterObjectIds(spaceId, pageSize, answers) == Paginate(spaceId, pageSize, true, answers, 0);
    if answers[0].value.hasMore {
      var rest := Paginate(spaceId, pageSize, true, answers[1..], 0);
      assert rest.end.Raised? ==> answers[1..] != [];
    }
  }
}

=== FILE: spaces.dfy ===
/** The package's space resolver `_resolve_space_ids`: it reads the entries
    of the spaces list, keeps the id of every entry whose name was asked for,
    warns about the names it did not find and fails when nothing resolved. */
module Spaces {
  import opened Json
  import opened Errors

  /** The resolver's state: the space ids in first-insertion order (the key
      order of `space_name_map`) and the id-to-name map itself. */
  datatype Resolution = Resolution(ids: seq<Json>, names: map<Json, string>)

  const NothingResolved: string := "At least one space name must resolve to an id"

  /** The entry names a wanted space and has a truthy id. */
  predicate Selects(space: Json, wanted: set<string>) {
    && space.JObj?
    && Get(space, "name").JStr? && Get(space, "name").s in wanted
    && Truthy(Get(space, "id"))
  }

  /** The entry makes the loop raise TypeError: its name cannot be looked up in
      a set, or it is selected and its id cannot be a dict key. */
  predicate Unhashable(space: Json, wanted: set<string>) {
    space.JObj? &&
    (!Hashable(Get(space, "name")) || (Selects(space, wanted) && !Hashable(Get(space, "id"))))
  }

  /** The entry's id is where the loop stores its name. */
  predicate Binds(space: Json, wanted: set<string>, sid: Json) {
    Selects(space, wanted) && Get(space, "id") == sid
  }

  /** No id appears twice. */
  predicate Distinct(ids: seq<Json>) {
    forall i, j :: 0 <= i < j < |ids| ==> ids[i] != ids[j]
  }

  /** The ids list and the map's keys agree, and no id repeats. */
  predicate WellFormed(res: Resolution) {
    && Distinct(res.ids)
    && (forall i :: 0 <= i < |res.ids| ==> res.ids[i] in res.names)
    && (forall sid :: sid in res.names ==> sid in res.ids)
  }

  /** `space_name_map[sid] = name`: an existing key keeps its place and takes
      the new name; a new key goes last. */
  function Insert(res: Resolution, sid: Json, name: string): (r: Resolution)
    requires WellFormed(res)
    ensures WellFormed(r)
    ensures r.names == res.names[sid := name]
    ensures sid in res.names ==> r.ids == res.ids
    ensures sid !in res.names ==> r.ids == res.ids + [sid]
  {
    if sid in res.names then Resolution(res.ids, res.names[sid := name])
    else Resolution(res.ids + [sid], res.names[sid := name])
  }

  /** The loop over the spaces list, one entry at a time, in order. */
  function Collect(spaces: seq<Json>, wanted: set<string>): (r: Result<Resolution>)
    ensures r.Ok? ==> WellFormed(r.value)
    ensures r.Ok? ==> forall sid :: sid in r.value.names ==> r.value.names[sid] in wanted
    ensures r.Err? ==> r.error == TypeError
    decreases |spaces|
  {
    if spaces == [] then Ok(Resolution([], map[]))
    else
      match Collect(spaces[..|spaces| - 1], wanted)
      case Err(e) => Err(e)
      case Ok(acc) =>
        var space := spaces[|spaces| - 1];
        if !space.JObj? then Ok(acc)
        else if !Hashable(Get(space, "name")) then Err(TypeError)
        else if Selects(space, wanted) then
          if !Hashable(Get(space, "id")) then Err(TypeError)
          else Ok(Insert(acc, Get(space, "id"), Get(space, "name").s))
        else Ok(acc)
  }

  /** The loop raises exactly when some entry is unhashable where it is looked at. */
  lemma {:induction false} CollectRaises(spaces: seq<Json>, wanted: set<string>)
    ensures Collect(spaces, wanted).Ok? <==> forall i :: 0 <= i < |spaces| ==> !Unhashable(spaces[i], wanted)
    decreases |spaces|
  {
    if spaces != [] {
      var init := spaces[..|spaces| - 1];
      assert forall i :: 0 <= i < |init| ==> init[i] == spaces[i];
      CollectRaises(init, wanted);
    }
  }

  /** `names` holds `sid` exactly when some entry binds it, with the name of
      the last entry that does. */
  predicate Pairs(spaces: seq<Json>, wanted: set<string>, sid: Json, names: map<Json, string>) {
    && (sid in names <==> exists i :: 0 <= i < |spaces| && Binds(spaces[i], wanted, sid))
    && (sid in names ==>
          exists i :: 0 <= i < |spaces| && Binds(spaces[i], wanted, sid) &&
            names[sid] == Get(spaces[i], "name").s &&
            forall j :: i < j < |spaces| ==> !Binds(spaces[j], wanted, sid))
  }

  /** One more entry: a selected entry binds its id to its name, any other
      leaves the map alone. */
  lemma PairsStep(init: seq<Json>, space: Json, wanted: set<string>, sid: Json,
                  acc: map<Json, string>, next: map<Json, string>)
    requires Pairs(init, wanted, sid, acc)
    requires next == if Selects(space, wanted) then acc[Get(space, "id") := Get(space, "name").s] else acc
    ensures Pairs(init + [space], wanted, sid, next)
  {
    var spaces := init + [space];
    assert forall j :: 0 <= j < |init| ==> spaces[j] == init[j];
    if Binds(space, wanted, sid) {
      assert Binds(spaces[|init|], wanted, sid);
    } else {
      assert (exists i :: 0 <= i < |spaces| && Binds(spaces[i], wanted, sid)) <==>
             (exists i :: 0 <= i < |init| && Binds(init[i], wanted, sid));
      if sid in next {
        var i :| 0 <= i < |init| && Binds(init[i], wanted, sid) &&
          acc[sid] == Get(init[i], "name").s &&
          forall j :: i < j < |init| ==> !Binds(init[j], wanted, sid);
        assert Binds(spaces[i], wanted, sid);
      }
    }
  }

  /** The loop's step on the map alone. */
  lemma CollectStep(spaces: seq<Json>, wanted: set<string>)
    requires spaces != [] && Collect(spaces, wanted).Ok?
    ensures Collect(spaces[..|spaces| - 1], wanted).Ok?
    ensures var acc := Collect(spaces[..|spaces| - 1], wanted).value.names;
      var space := spaces[|spaces| - 1];
      Collect(spaces, wanted).value.names ==
        if Selects(space, wanted) then acc[Get(space, "id") := Get(space, "name").s] else acc
  {
  }

  /** The map holds exactly the ids of the selected entries, and each id is
      bound to the name of the last entry that selected it. */
  lemma {:induction false} CollectPairs(spaces: seq<Json>, wanted: set<string>, sid: Json)
    requires Collect(spaces, wanted).Ok?
    ensures sid in Collect(spaces, wanted).value.names <==>
      exists i :: 0 <= i < |spaces| && Binds(spaces[i], wanted, sid)
    ensures sid in Collect(spaces, wanted).value.names ==>
      exists i :: 0 <= i < |spaces| && Binds(spaces[i], wanted, sid) &&
        Collect(spaces, wanted).value.names[sid] == Get(spaces[i], "name").s &&
        forall j :: i < j < |spaces| ==> !Binds(spaces[j], wanted, sid)
    decreases |spaces|
  {
    if spaces != [] {
      var init, space := spaces[..|spaces| - 1], spaces[|spaces| - 1];
      CollectStep(spaces, wanted);
      CollectPairs(init, wanted, sid);
      PairsStep(init, space, wanted, sid, Collect(init, wanted).value.names, Collect(spaces, wanted).value.names);
      assert init + [space] == spaces;
    }
  }

  /** `_resolve_space_ids` over the entries `_list_spaces` returned. The
      unknown-names warning comes before the failure when nothing resolved. */
  function ResolveSpaceIds(spaces: seq<Json>, wanted: set<string>): (r: (Result<Resolution>, seq<Warning>))
    ensures Collect(spaces, wanted).Err? ==> r == (Collect(spaces, wanted), [])
    ensures Collect(spaces, wanted).Ok? ==>
      var names := Collect(spaces, wanted).value.names;
      && (r.0.Ok? <==> names != map[])
      && (r.0.Ok? ==> r.0.value == Collect(spaces, wanted).value)
      && (r.0.Err? ==> r.0.error == ValueError(NothingResolved))
      && (r.1 == [] <==> wanted <= names.Values)
      && (r.1 != [] ==> r.1 == [UnknownSpaces(wanted - names.Values)])
    ensures r.0.Ok? ==> WellFormed(r.0.value) && r.0.value.ids != []
  {
    match Collect(spaces, wanted)
    case Err(e) => (Err(e), [])
    case Ok(res) =>
      var missing := wanted - res.names.Values;
      var warnings := if missing != {} then [UnknownSpaces(missing)] else [];
      assert missing == {} <==> wanted <= res.names.Values by {
        if wanted <= res.names.Values {
          assert forall n :: n in missing ==> n in wanted && n !in res.names.Values;
        }
        if missing == {} {
          assert forall n :: n in wanted ==> n in res.names.Values || n in missing;
        }
      }
      if res.names == map[] then (Err(ValueError(NothingResolved)), warnings)
      else (Ok(res), warnings)
  }

  /** Two entry dicts as the API lists them. */
  function SpaceEntry(id: string, name: string): Json {
    JObj([("id", JStr(id)), ("name", JStr(name))])
  }

  lemma SpaceEntryFields(id: string, name: string)
    ensures Get(SpaceEntry(id, name), "id") == JStr(id)
    ensures Get(SpaceEntry(id, name), "name") == JStr(name)
  {
    var e := SpaceEntry(id, name);
    GetMember(e, 0);
    GetMember(e, 1);
    assert e.members[..1] == [("id", JStr(id))];
  }

  /** A last entry that is selected, with hashable name and id: its id is
      stored under its name. */
  lemma CollectSelected(spaces: seq<Json>, wanted: set<string>, acc: Resolution)
    requires spaces != [] && Collect(spaces[..|spaces| - 1], wanted) == Ok(acc)
    requires var space := spaces[|spaces| - 1];
      Selects(space, wanted) && Hashable(Get(space, "name")) && Hashable(Get(space, "id"))
    ensures var space := spaces[|spaces| - 1];
      Collect(spaces, wanted) == Ok(Insert(acc, Get(space, "id"), Get(space, "name").s))
  {
  }

  /** Two selected entries in a row: the first id, then the second. */
  lemma CollectTwo(e1: Json, e2: Json, wanted: set<string>, id1: Json, id2: Json, n1: string, n2: string)
    requires Selects(e1, wanted) && Get(e1, "id") == id1 && Get(e1, "name") == JStr(n1)
    requires Selects(e2, wanted) && Get(e2, "id") == id2 && Get(e2, "name") == JStr(n2)
    requires Hashable(id1) && Hashable(id2) && id1 != id2
    ensures Collect([e1, e2], wanted) == Ok(Resolution([id1, id2], map[id1 := n1, id2 := n2]))
  {
    var empty := Resolution([], map[]);
    var first := Resolution([id1], map[id1 := n1]);
    assert [e1][..0] == [];
    CollectSelected([e1], wanted, empty);
    assert Insert(empty, id1, n1) == first;
    assert [e1, e2][..1] == [e1];
    CollectSelected([e1, e2], wanted, first);
    assert Insert(first, id2, n2) == Resolution([id1, id2], map[id1 := n1, id2 := n2]);
  }

  /** A loop result whose names cover the wanted set resolves without warning. */
  lemma ResolveCovered(spaces: seq<Json>, wanted: set<string>, res: Resolution)
    requires Collect(spaces, wanted) == Ok(res)
    requires res.names != map[] && wanted <= res.names.Values
    ensures ResolveSpaceIds(spaces, wanted) == (Ok(res), [])
  {
  }

  /** The package's resolver test: both wanted names resolve, in list order,
      and nothing is reported missing. */
  lemma ResolvesKnownSpaces(id1: string, id2: string, personal: string, work: string)
    requires id1 != "" && id2 != "" && id1 != id2
    ensures ResolveSpaceIds([SpaceEntry(id1, personal), SpaceEntry(id2, work)], {personal, work}) ==
      (Ok(Resolution([JStr(id1), JStr(id2)], map[JStr(id1) := personal, JStr(id2) := work])), [])
  {
    var names := map[JStr(id1) := personal, JStr(id2) := work];
    SpaceEntryFields(id1, personal);
    SpaceEntryFields(id2, work);
    CollectTwo(SpaceEntry(id1, personal), SpaceEntry(id2, work), {personal, work},
               JStr(id1), JStr(id2), personal, work);
    assert {personal, work} <= names.Values by {
      assert names[JStr(id1)] == personal && names[JStr(id2)] == work;
    }
    ResolveCovered([SpaceEntry(id1, personal), SpaceEntry(id2, work)], {personal, work},
                   Resolution([JStr(id1), JStr(id2)], names));
  }

  /** The package's missing-space test: one wanted name is not listed, so it
      is reported once and the other still resolves. */
  lemma WarnsForMissingSpaces(id1: string, personal: string, work: string)
    requires id1 != "" && personal != work
    ensures ResolveSpaceIds([SpaceEntry(id1, personal)], {personal, work}) ==
      (Ok(Resolution([JStr(id1)], map[JStr(id1) := personal])), [UnknownSpaces({work})])
  {
    var e1 := SpaceEntry(id1, personal);
    var names := map[JStr(id1) := personal];
    assert Collect([e1], {personal, work}) == Ok(Resolution([JStr(id1)], names)) by {
      SpaceEntryFields(id1, personal);
      assert [e1][..0] == [];
      CollectSelected([e1], {personal, work}, Resolution([], map[]));
      assert Insert(Resolution([], map[]), JStr(id1), personal) == Resolution([JStr(id1)], names);
    }
    assert names.Values == {personal};
    assert {personal, work} - {personal} == {work};
  }
}

=== FILE: transport.dfy ===
/** The retry-transport adapter: one logical request, retried on rate limiting,
    with its final status classified into success, an authentication error or
    an API error. The HTTP library itself is a parameter: `transport(k)` is
    what its k-th call (counting from 0) produced. */
module Transport {
  import opened Json
  import opened Errors

  /** A response body: JSON that response.json() decodes, or raw text it rejects. */
  datatype Body = Decoded(json: Json) | Undecodable(text: string)

  datatype Response = Response(status: int, body: Body)

  /** One call of the HTTP library: a response, or a raised RequestException. */
  datatype Exchange = Answered(response: Response) | Thrown(reason: string)

  /** Retries after the first attempt, and the backoff unit in seconds. */
  const MaxRetries: nat := 3
  const RetryBackoff: nat := 1

  /** How much of an undecodable body an error message quotes. */
  const DetailLimit: nat := 200

  /** Rate limiting (429) and unavailability (503) are the only retried statuses. */
  predicate Retryable(status: int) {
    status == 429 || status == 503
  }

  /** The human-readable part of an error response: the body's `message`,
      else its `error`, else nothing; for a body that is not JSON, the first
      200 characters of its text. */
  function ErrorDetail(body: Body): (detail: string)
    ensures body.Undecodable? ==>
      |detail| == (if |body.text| < DetailLimit then |body.text| else DetailLimit) &&
      detail <= body.text
    ensures body.Decoded? && !body.json.JObj? ==> detail == ""
    ensures body.Decoded? && Truthy(Get(body.json, "message")) ==>
      detail == PyStr(Get(body.json, "message"))
    ensures body.Decoded? && !Truthy(Get(body.json, "message")) && Truthy(Get(body.json, "error")) ==>
      detail == PyStr(Get(body.json, "error"))
    ensures body.Decoded? && !Truthy(Get(body.json, "message")) && !Truthy(Get(body.json, "error")) ==>
      detail == ""
  {
    match body
    case Undecodable(text) =>
      if |text| < DetailLimit then text else text[..DetailLimit]
    case Decoded(payload) =>
      if !payload.JObj? then ""
      else if Truthy(Get(payload, "message")) then PyStr(Get(payload, "message"))
      else if Truthy(Get(payload, "error")) then PyStr(Get(payload, "error"))
      else ""
  }

  /** Classify a final status: below 400 is success, 401 and 403 are
      authentication failures, every other status of 400 or above is an API error. */
  function RaiseForStatus(response: Response): (r: Outcome)
    ensures r.Pass? <==> response.status < 400
    ensures r.Fail? ==> r.error.IsAPIError()
    ensures r.Fail? ==> (r.error.AuthError? <==> response.status == 401 || response.status == 403)
    ensures r.Fail? && r.error.AuthError? ==>
      r.error == AuthError(response.status, ErrorDetail(response.body))
    ensures r.Fail? && !r.error.AuthError? ==>
      r.error == APIError(BadStatus(response.status, ErrorDetail(response.body)))
  {
    if response.status < 400 then Pass
    else
      var detail := ErrorDetail(response.body);
      if response.status == 401 || response.status == 403 then Fail(AuthError(response.status, detail))
      else Fail(APIError(BadStatus(response.status, detail)))
  }

  /** What the adapter does with the answer it does not retry. */
  function Settle(exchange: Exchange): (r: Result<Response>)
    ensures exchange.Thrown? ==> r == Err(APIError(TransportFailure(exchange.reason)))
    ensures exchange.Answered? ==>
      (r.Ok? <==> exchange.response.status < 400) &&
      (r.Ok? ==> r.value == exchange.response) &&
      (r.Err? ==> RaiseForStatus(exchange.response) == Fail(r.error))
  {
    match exchange
    case Thrown(reason) => Err(APIError(TransportFailure(reason)))
    case Answered(response) =>
      match RaiseForStatus(response)
      case Pass => Ok(response)
      case Fail(e) => Err(e)
  }

  /** A retried answer: a response with a retryable status. */
  predicate RetriedAnswer(exchange: Exchange) {
    exchange.Answered? && Retryable(exchange.response.status)
  }

  /** The adapter's observable run: its outcome, how many times it called the
      HTTP library, the delays it slept for and the warnings it issued. */
  datatype RetryRun = RetryRun(result: Result<Response>, calls: nat, sleeps: seq<nat>, warnings: seq<Warning>)

  /** The retry loop, entered with `attempt` retries already made (callers
      pass 0). A raised transport error ends it at once; a 429 or 503 is
      retried while attempt < maxRetries, after sleeping backoff * (attempt + 1);
      any other answer, or a retryable one with the budget spent, is settled. */
  function RequestWithRetries(transport: nat -> Exchange, maxRetries: nat, backoff: nat, attempt: nat): (run: RetryRun)
    requires attempt <= maxRetries
    ensures attempt < run.calls <= maxRetries + 1
    ensures forall k :: attempt <= k < run.calls - 1 ==> RetriedAnswer(transport(k))
    ensures RetriedAnswer(transport(run.calls - 1)) ==> run.calls == maxRetries + 1
    ensures run.result == Settle(transport(run.calls - 1))
    ensures |run.sleeps| == |run.warnings| == run.calls - 1 - attempt
    decreases maxRetries - attempt
  {
    var exchange := transport(attempt);
    if RetriedAnswer(exchange) && attempt < maxRetries then
      var rest := RequestWithRetries(transport, maxRetries, backoff, attempt + 1);
      RetryRun(rest.result, rest.calls,
               [backoff * (attempt + 1)] + rest.sleeps,
               [RateLimited(exchange.response.status, attempt + 1, maxRetries)] + rest.warnings)
    else
      RetryRun(Settle(exchange), attempt + 1, [], [])
  }

  /** Before its i-th retry the adapter sleeps backoff * (attempt + i + 1)
      seconds: a linear backoff. */
  lemma {:induction false} RetrySleeps(transport: nat -> Exchange, maxRetries: nat, backoff: nat, attempt: nat)
    requires attempt <= maxRetries
    ensures forall i :: 0 <= i < |RequestWithRetries(transport, maxRetries, backoff, attempt).sleeps| ==>
      RequestWithRetries(transport, maxRetries, backoff, attempt).sleeps[i] == backoff * (attempt + i + 1)
    decreases maxRetries - attempt
  {
    if RetriedAnswer(transport(attempt)) && attempt < maxRetries {
      var run := RequestWithRetries(transport, maxRetries, backoff, attempt);
      var rest := RequestWithRetries(transport, maxRetries, backoff, attempt + 1);
      RetrySleeps(transport, maxRetries, backoff, attempt + 1);
      assert run.sleeps == [backoff * (attempt + 1)] + rest.sleeps;
      forall i | 1 <= i < |run.sleeps|
        ensures run.sleeps[i] == backoff * (attempt + i + 1)
      {
        var j := i - 1;
        assert run.sleeps[i] == rest.sleeps[j];
        assert rest.sleeps[j] == backoff * (attempt + 1 + j + 1);
        assert attempt + 1 + j + 1 == attempt + i + 1;
      }
    } else {
      assert RequestWithRetries(transport, maxRetries, backoff, attempt).sleeps == [];
    }
  }

  /** Before its i-th retry the adapter warns with the retried status and the
      retry's number out of maxRetries. */
  lemma {:induction false} RetryWarnings(transport: nat -> Exchange, maxRetries: nat, backoff: nat, attempt: nat)
    requires attempt <= maxRetries
    ensures forall i :: 0 <= i < |RequestWithRetries(transport, maxRetries, backoff, attempt).warnings| ==>
      transport(attempt + i).Answered? &&
      RequestWithRetries(transport, maxRetries, backoff, attempt).warnings[i] ==
        RateLimited(transport(attempt + i).response.status, attempt + i + 1, maxRetries)
    decreases maxRetries - attempt
  {
    if RetriedAnswer(transport(attempt)) && attempt < maxRetries {
      var run := RequestWithRetries(transport, maxRetries, backoff, attempt);
      var rest := RequestWithRetries(transport, maxRetries, backoff, attempt + 1);
      RetryWarnings(transport, maxRetries, backoff, attempt + 1);
      assert run.warnings == [RateLimited(transport(attempt).response.status, attempt + 1, maxRetries)] + rest.warnings;
      assert attempt + 0 == attempt;
      assert run.warnings[0] == RateLimited(transport(attempt + 0).response.status, attempt + 0 + 1, maxRetries);
      forall i | 1 <= i < |run.warnings|
        ensures transport(attempt + i).Answered?
        ensures run.warnings[i] == RateLimited(transport(attempt + i).response.status, attempt + i + 1, maxRetries)
      {
        var j := i - 1;
        assert run.warnings[i] == rest.warnings[j];
        assert rest.warnings[j] ==
          RateLimited(transport(attempt + 1 + j).response.status, attempt + 1 + j + 1, maxRetries);
        assert attempt + 1 + j == attempt + i;
      }
    } else {
      assert RequestWithRetries(transport, maxRetries, backoff, attempt).warnings == [];
    }
  }

  /** A rate-limited answer followed by a success within the budget returns the success. */
  lemma RetryThenSucceed(transport: nat -> Exchange, maxRetries: nat, backoff: nat)
    requires maxRetries >= 1
    requires RetriedAnswer(transport(0))
    requires transport(1).Answered? && transport(1).response.status == 200
    ensures RequestWithRetries(transport, maxRetries, backoff, 0) ==
      RetryRun(Ok(transport(1).response), 2, [backoff],
               [RateLimited(transport(0).response.status, 1, maxRetries)])
  {
    var run := RequestWithRetries(transport, maxRetries, backoff, 0);
    assert !RetriedAnswer(transport(1));
  }

  /** Rate limiting on every one of the maxRetries + 1 calls raises the error
      that the last status classifies to. */
  lemma RetryExhausted(transport: nat -> Exchange, maxRetries: nat, backoff: nat)
    requires forall k :: 0 <= k <= maxRetries ==>
      transport(k).Answered? && transport(k).response.status == 429
    ensures var run := RequestWithRetries(transport, maxRetries, backoff, 0);
      run.calls == maxRetries + 1 &&
      run.result == Err(APIError(BadStatus(429, ErrorDetail(transport(maxRetries).response.body))))
  {
    var run := RequestWithRetries(transport, maxRetries, backoff, 0);
    assert transport(run.calls - 1).response.status == 429;
  }

  /** The headers of every request: JSON accepted, a fixed user agent, and the
      bearer credential exactly when an API key is configured. */
  function Headers(apiKey: string): (h: map<string, string>)
    ensures "Accept" in h && h["Accept"] == "application/json"
    ensures "User-Agent" in h && h["User-Agent"] == "anytype-loader"
    ensures "Authorization" in h <==> apiKey != ""
    ensures "Authorization" in h ==> h["Authorization"] == "Bearer " + apiKey
    ensures h.Keys <= {"Accept", "User-Agent", "Authorization"}
  {
    var base := map["Accept" := "application/json", "User-Agent" := "anytype-loader"];
    if apiKey != "" then base["Authorization" := "Bearer " + apiKey] else base
  }
}
